=== FILE: README.md ===
# Normalizer Lambdas, modelled in Dafny

The normalizer Lambdas of `aws_lambda_blogposts` turn football match data
into a flat CSV table. Each invocation is triggered by an object landing in a
transient S3 bucket. The handler reads the JSON object and normalizes it with
pandas. It stamps three run-constant metadata columns onto every row, puts the
table into the normalized bucket, copies the original object into the raw
bucket, deletes it from the transient bucket, and logs success. Three classes
implement the transform:

- `Normalizer` and `WWCNormalizer` coerce the configured integer columns and
  relabel a drawn match.
- `Ligue1Normalizer` does not coerce. It replaces a home or away win by the
  winning team's name before relabelling draws.

The model covers that core as pure functions:

- `values.dfy` (`Values`): cell values (null, integer, string, timestamp),
  rows, the errors a run can end with, and a `Result` usable with `:-`.
- `digits.dfy` (`Digits`): the decimal text `astype('int')` accepts in an
  integer column, the zero-padded date fields of a storage key, and the
  search for the first separator that reading a key or a copy source needs.
- `frames.dfy` (`Frames`): `pd.json_normalize` on flat records, and
  `reindex` onto the ordered final schema.
- `normalize.dfy` (`Normalize`): `normalize_data` of all three classes as one
  transform. The transform is parametrised by whether it coerces integers and
  by the winner-rewrite policy: draw-only, or team substitution.
- `normalize_spec.dfy` (`NormalizeSpec`): an independent record-at-a-time
  reference semantics. It says which inputs the transform accepts and what
  every output cell holds, and a lemma proves the transform equal to it.
- `normalize_props.dfy` (`NormalizeProps`): consequences for single cells:
  - renamed fields pass through;
  - absent schema columns are null;
  - integer columns hold whole numbers, with null becoming 0;
  - the two winner policies, including the chained Ligue 1 passes.
- `metadata.dfy` (`Metadata`): `add_metadata`. It adds the division,
  timestamp and tag columns, and derives the `YYYYMMDD/<tag>.csv` and
  `YYYYMMDD/<tag>.json` keys. A key parser reads a key back to its date and
  tag.
- `orchestrator.dfy` (`Orchestrator`): `__call__` over an abstract object
  store. A run returns the trace of storage calls it attempted, the final
  store, and the error that ended it, if any. Its lemmas state the call order,
  that each call happens exactly once, fail-fast, that nothing is rolled back,
  and the final placement of the objects.

The clock reading and the UUID string are parameters of `add_metadata` and of
`__call__`. Storage permissions are modelled as a set of refused operations.

Two behaviours of the code to note:

- Integer coercion runs before the winner rewrite, not after it.
  `NormalizeProps.CoercionBeforeRewrite` shows the observable consequence.
- Columns the rename map does not mention keep their names. They are dropped
  only by the final reindex, so an unmapped field that happens to be named in
  the final schema reaches the output.

## Model

| member | source | states |
|---|---|---|
| Digits.ParseInt | lambdas/normalizer/normalizer.py:89 | a string cell converts to an integer exactly when it is an optionally signed run of ASCII digits |
| Digits.ParseIntSign | lambdas/normalizer/normalizer.py:89 | a plus sign in front of a digit string keeps its value and a minus sign negates it, so "+5" reads as 5 and "-0" as 0 |
| Digits.ParseIntLeadingZero | lambdas/normalizer/normalizer.py:89 | a digit string reads as its number, and a leading zero does not change it, so "05" reads as 5 |
| Digits.ParseNatLeadingZero | lambdas/normalizer/normalizer.py:89 | a zero in front of a digit string keeps it a digit string denoting the same number |
| Digits.ParseShowInt | lambdas/normalizer/normalizer.py:89 | every integer written in decimal is read back as itself |
| Digits.FixedDigits | lambdas/normalizer/normalizer.py:111 | a date field is printed as exactly `width` digits that read back as the field's value when it fits |
| Frames.Flatten | lambdas/normalizer/normalizer.py:86 | one row per record over the union of all field names; a record's own fields keep their values, the others are null |
| Frames.Reindex | lambdas/normalizer/normalizer.py:91 | the table has exactly the schema's columns in schema order and the same rows; a column the frame has keeps its values, a missing one is null |
| Frames.ReindexToOwnColumns | lambdas/wwc/wwc_normalizer.py:31 | reindexing to a listing of exactly the frame's own columns leaves every row as it was |
| Normalize.VariantOf | lambdas/ligue1/ligue1_normalizer.py:22-33 | only the Ligue 1 class substitutes teams, and exactly the classes that coerce integers use the draw-only rewrite |
| Normalize.Rename | lambdas/normalizer/normalizer.py:88 | renaming succeeds exactly when no two columns get the same name; every cell moves to its column's new name unchanged |
| Normalize.Coerce | lambdas/normalizer/normalizer.py:89 | a null cell becomes 0; an integer cell converts to itself exactly when it lies in the 64-bit range; a string converts exactly when it is an integer literal whose value lies in that range, and then to that value; a timestamp never converts |
| Normalize.CoerceText | lambdas/normalizer/normalizer.py:89 | an integer cell and a cell holding its decimal text convert alike: to that integer inside the 64-bit range and not at all outside it, where pandas raises OverflowError |
| Normalize.CoerceColumns | lambdas/wwc/wwc_normalizer.py:27 | coercing column by column succeeds exactly when every cell of every integer column converts; it sets those cells to their integers, keeps all others, and names an integer column on failure |
| Normalize.CoerceIntegers | lambdas/normalizer/normalizer.py:89 | an integer column missing from the frame fails with the list of missing columns; otherwise coercion succeeds exactly when every cell converts, null becoming 0 and other columns unchanged |
| Normalize.RewriteWinner | lambdas/ligue1/ligue1_normalizer.py:27-29 | the three sequential substitution passes (or the single draw pass) give each row the case-by-case winner outcome and change no other cell; a missing `winner` or team column is an error |
| Normalize.NormalizeData | lambdas/normalizer/normalizer.py:91-93 | the output has exactly the final schema's columns in order and one row per input record |
| NormalizeSpec.RenamedCell | lambdas/normalizer/normalizer.py:88 | after rename, a cell holds the value of the one field renamed to its column, or null in the reference when none is |
| NormalizeSpec.CoercibleCell | lambdas/normalizer/normalizer.py:89 | every renamed integer-column cell converts when the fields feeding it do |
| NormalizeSpec.PreparesAll | lambdas/normalizer/normalizer.py:88-89 | rename and coercion succeed on an injective map whose integer stage accepts |
| NormalizeSpec.StagedCell | lambdas/normalizer/normalizer.py:88-89 | the prepared frame's cell equals the reference value after rename and, for integer columns, coercion |
| NormalizeSpec.CoercedCell | lambdas/wwc/wwc_normalizer.py:27 | an integer-column cell after coercion is the integer its renamed value converts to |
| NormalizeSpec.RejectsDuplicates | lambdas/normalizer/normalizer.py:88-91 | a rename map that merges two field names makes the transform fail with duplicate columns |
| NormalizeSpec.RejectsMissingIntegerColumns | lambdas/normalizer/normalizer.py:89 | with coercion, an integer column no field is renamed to fails the transform, naming every missing integer column in order |
| NormalizeSpec.RejectsNonNumeric | lambdas/wwc/wwc_normalizer.py:27 | with coercion, a non-numeric value in a field renamed to an integer column fails the transform, even if the column is later dropped |
| NormalizeSpec.RejectsMissingWinner | lambdas/wwc/wwc_normalizer.py:29 | a `winner` column, or under team substitution a team column, that no field feeds is a missing-column error |
| NormalizeSpec.RejectsFail | lambdas/normalizer/normalizer.py:86-91 | every input outside the accepted set makes the transform fail |
| NormalizeSpec.OutputCell | lambdas/normalizer/normalizer.py:91 | an output cell is the rewritten frame's cell for a column some field is renamed to, and null otherwise |
| NormalizeSpec.CellCorrect | lambdas/normalizer/normalizer.py:86-91 | every output cell of an accepted input equals the reference cell of its record |
| NormalizeSpec.WinnerCellCorrect | lambdas/ligue1/ligue1_normalizer.py:27-29 | the rewritten `winner` cell equals the reference outcome computed from the record's own winner and team values |
| NormalizeSpec.RowCorrect | lambdas/wwc/wwc_normalizer.py:23-31 | every output row of an accepted input equals the reference row of its record |
| NormalizeSpec.NormalizeCharacterized | lambdas/normalizer/normalizer.py:80-93 | the transform succeeds exactly on the accepted inputs, and then equals the reference table, row by row and record by record |
| NormalizeProps.FieldValue | lambdas/normalizer/normalizer.py:88 | with an injective rename map, the value feeding a renamed column is the value of the field renamed to it |
| NormalizeProps.PassThrough | lambdas/ligue1/ligue1_normalizer.py:25-31 | a field that is neither the winner nor coerced reaches the output unchanged under its new name |
| NormalizeProps.AbsentIsNull | lambdas/wwc/wwc_normalizer.py:31 | a schema column that no field is renamed to is null in every output row |
| NormalizeProps.IntegerColumnCell | lambdas/wwc/wwc_normalizer.py:27 | with coercion, an integer output cell is a whole number: the conversion of the field feeding it, and 0 when that field is null or absent; this covers `winner` too under the draw-only rewrite, which leaves an integer winner as it is |
| NormalizeProps.DrawOnlyWinner | lambdas/normalizer/normalizer.py:90 | under the draw-only policy a "D" winner becomes "<draw>" and every other winner value, null included, is unchanged |
| NormalizeProps.TeamWinner | lambdas/ligue1/ligue1_normalizer.py:27-29 | "H" becomes the home team and "A" the away team. The passes act on the value each previous pass left, so "H" with home team "A" ends as the away team, and a substituted team named "D" ends as "<draw>" |
| NormalizeProps.NotANumber | lambdas/normalizer/normalizer.py:89 | a string starting with neither a sign nor a digit does not convert to an integer |
| NormalizeProps.CoercionBeforeRewrite | lambdas/wwc/wwc_normalizer.py:27-29 | coercion runs before the rewrite: a "D" winner in an integer column fails instead of being relabelled |
| Metadata.AddColumn | common_libs/normalizer/base_normalizer.py:100-102 | a new column is appended after the existing ones, an existing one keeps its place, and every row gets the value |
| Metadata.AddColumnConforms | common_libs/normalizer/base_normalizer.py:100-102 | adding a column keeps the table conforming and grows its column set by exactly that name |
| Metadata.Tag | lambdas/normalizer/normalizer.py:105 | the tag is the UUID string's first eight characters, or all of it when shorter |
| Metadata.DateKey | lambdas/normalizer/normalizer.py:111 | the date prefix is eight digits whose first four, middle two and last two read back as year, month and day |
| Metadata.AddMetadata | common_libs/normalizer/base_normalizer.py:88-107 | the metadata columns come after the existing columns, each row gets the division, the timestamp and the tag with its other cells kept, and the two keys use the run's date and tag |
| Metadata.MetadataCells | lambdas/normalizer/normalizer.py:107-109 | a stamped row holds the configured division, the run's timestamp and the run's tag, plus exactly its former cells |
| Metadata.MetadataUniform | tests/lambdas/normalizer/test_normalizer.py:79-83 | the metadata columns hold one non-null value across all rows |
| Metadata.KeyRoundTrip | lambdas/normalizer/normalizer.py:111-112 | a key reads back as the date, the tag and the extension it was built from when the tag has no dot |
| Metadata.CanonicalTag | lambdas/normalizer/normalizer.py:105 | the tag of a canonical UUID string is eight hex digits, free of dots and slashes |
| Metadata.RunKeys | common_libs/normalizer/base_normalizer.py:104-105 | both keys of a run read back as the run's date and tag, one with extension `csv`, the other `json` |
| Orchestrator.SourceLoc | common_libs/normalizer/base_normalizer.py:65-67 | a copy source splits at its first slash into a slash-free bucket and a key that rejoin to it |
| Orchestrator.CopySourceRoundTrip | common_libs/normalizer/base_normalizer.py:65-67 | the copy source built from a slash-free bucket and a key names that bucket and key again |
| Orchestrator.Apply | lambdas/normalizer/normalizer.py:34-78 | a refused call fails with access denied; a get succeeds exactly when not refused and the object exists, and changes nothing; a put succeeds exactly when not refused; a put stores the table under its key; a copy needs a `bucket/key` source naming a stored object and stores that object under the target; a delete fails only when refused and removes the key whether or not it exists; the log line never fails |
| Orchestrator.Execute | common_libs/normalizer/base_normalizer.py:121-129 | the attempted steps are a prefix of the planned ones, all of them when no error occurs |
| Orchestrator.ExecuteStopsAtFailure | common_libs/normalizer/base_normalizer.py:109-129 | a failing sequence leaves the store as the successful steps before the failing one left it, and the failing step is the last attempted |
| Orchestrator.Writes | common_libs/normalizer/base_normalizer.py:121-129 | the writes are put to the normalized bucket, copy into the raw bucket with `bucket/key` as source, delete of the original, then the success log line |
| Orchestrator.Transform | common_libs/normalizer/base_normalizer.py:113-118 | the transform succeeds on a JSON document exactly when `normalize_data` does, and then yields `add_metadata` applied to the normalized table; a body that is not JSON fails as not JSON |
| Orchestrator.TransformKeys | common_libs/normalizer/base_normalizer.py:118 | the keys a successful transform stamps read back as the date of the clock reading and the tag of the UUID |
| Orchestrator.Run | common_libs/normalizer/base_normalizer.py:109-129 | an event without records fails before any call; otherwise the first call is the get of the first record's object |
| Orchestrator.PlannedCallsOnce | tests/lambdas/normalizer/test_normalizer.py:111-114 | the planned trace holds exactly one get, one put, one copy and one delete |
| Orchestrator.SuccessfulRun | tests/lambdas/normalizer/test_normalizer.py:111-117 | a run without error made exactly get, put, copy, delete, then logged "Successful normalization.", each operation once |
| Orchestrator.FailFast | common_libs/normalizer/base_normalizer.py:109-129 | a failed run never logs success and its calls are a proper prefix of the planned ones, or just the read when the read or the transform failed |
| Orchestrator.Invoke | common_libs/normalizer/base_normalizer.py:109-121 | an event with no record fails before any call; an object that is not JSON, or whose records `normalize_data` rejects, ends the invocation after the read with the store untouched and that error reported |
| Orchestrator.TransformFailureStopsRun | common_libs/normalizer/base_normalizer.py:115-121 | a failing transform ends the run after the read with the store untouched |
| Orchestrator.NoRollback | common_libs/normalizer/base_normalizer.py:121-127 | a run failing after the read leaves the store as the writes before the failing call left it |
| Orchestrator.CopyRefusedKeepsPut | common_libs/normalizer/base_normalizer.py:121-124 | a refused copy ends the run after get, put and copy with the normalized table in place |
| Orchestrator.SuccessfulRunEffects | common_libs/normalizer/base_normalizer.py:121-127 | after a successful run the table is under the normalized key, the original object is under the raw key, the original is gone, and nothing else changed |
| Orchestrator.WritesEffect | common_libs/normalizer/base_normalizer.py:121-127 | the four writes, when none fails, put the table, copy the original and delete it |
| Orchestrator.FirstRecordOnly | common_libs/normalizer/base_normalizer.py:110-111 | records after the first one in the event do not change the run |
| Orchestrator.InvokeTable | common_libs/normalizer/base_normalizer.py:113-121 | a successful invocation puts a conforming table with one row per record of the object read, the final schema's columns followed by the three metadata columns when the schema names none of them, and the run's division, timestamp and tag in every row |
| Orchestrator.InvokeKeysAgree | common_libs/normalizer/base_normalizer.py:118-124 | the put and the copy of a successful invocation use keys with the same date and tag |

## Left out

- S3 itself is not modelled. The store is a map from bucket and key to an
  object body, and each call is one trace step. Permissions and service
  faults become a set of refused operations that is fixed for the run.
  Network retries, eventual consistency, versioned buckets and URL-encoding of
  the copy source are not modelled.
- Decoding is left out: the UTF-8 decode and `json.loads` of the object body.
  A body is either already-decoded records or unparseable.
- `pd.json_normalize` is modelled on a list of flat records whose field names
  are already dotted paths. Flattening nested objects is not modelled, and a
  single JSON object is modelled as a one-element list. A cell value is
  null, an integer, a string or a timestamp: a record whose field holds a
  JSON array, or a nested object `json_normalize` leaves as one cell, cannot
  be represented.
- YAML configuration loading, logger setup and the module-level construction
  of the handler from environment variables are left out. The configuration is
  a plain datatype, and the log line is a trace step.
- `df.to_csv` serialisation is left out: the normalized object is the table
  itself.
- pandas dtypes are left out. There are no floats, booleans or NaN distinct
  from null. `astype('int')` on a float truncates, which is not modelled.
- Digits.ParseInt: does not accept the surrounding whitespace and underscores
  that Python's `int()` also allows, nor decimal digits outside ASCII (such as
  Arabic-Indic digits), which `int()` also reads.
- Normalize.Coerce: rejects every value outside the signed 64-bit range, as
  `astype('int')` does with OverflowError for a string cell or a column of
  Python integers; a column that pandas stores as unsigned 64-bit values and
  that holds values above the signed maximum is cast by numpy without a
  check and wraps, which is not modelled. The platform width of `'int'` is
  taken to be 64 bits.
- Metadata.DateKey: always pads the year to four digits. `strftime('%Y')` for
  years below 1000 depends on the platform, and the clock never gives such a
  year.
- A rename map that sends two present columns to one name makes the model
  fail with a duplicate-columns error before any other stage runs. In pandas
  the duplicate labels make a later stage raise, and which stage raises
  depends on where the duplicated name is used.
- Frames.Flatten: represents the columns before projection as a set, because
  the final reindex fixes the order.
- Frames.Reindex: a final schema that lists a name twice gives one cell per
  row for that name, where pandas would hold two columns of that label.
- `datetime.now` and `uuid4` are left out: the clock reading and the UUID
  string are inputs.
- The `context` argument of the handler is unused by the code and left out.

=== FILE: digits.dfy ===
/**
 Decimal text: the integer literals `astype('int')` accepts in an integer
 column, and the zero-padded fields `strftime('%Y%m%d')` writes into a
 storage key; and the search for a separator that reading a storage key or
 a copy source needs.
 */
module Digits {

  import opened Values

  predicate IsDigit(c: char) {
    '0' <= c <= '9'
  }

  predicate AllDigits(s: string) {
    forall i :: 0 <= i < |s| ==> IsDigit(s[i])
  }

  function DigitValue(c: char): (d: nat)
    requires IsDigit(c)
    ensures d < 10
  {
    c as int - '0' as int
  }

  function DigitChar(d: nat): (c: char)
    requires d < 10
    ensures IsDigit(c) && DigitValue(c) == d
  {
    ('0' as int + d) as char
  }

  function Pow10(n: nat): (p: nat)
    ensures p >= 1
  {
    if n == 0 then 1 else 10 * Pow10(n - 1)
  }

  /** The number a string of decimal digits denotes (leading zeros allowed). */
  function ParseNat(s: string): (n: nat)
    requires AllDigits(s)
    ensures n < Pow10(|s|)
  {
    if s == [] then 0
    else
      var p := ParseNat(s[..|s| - 1]);
      assert p <= Pow10(|s| - 1) - 1;
      assert p * 10 <= Pow10(|s|) - 10;
      p * 10 + DigitValue(s[|s| - 1])
  }

  lemma ParseNatAppend(s: string, c: char)
    requires AllDigits(s) && IsDigit(c)
    ensures AllDigits(s + [c])
    ensures ParseNat(s + [c]) == ParseNat(s) * 10 + DigitValue(c)
  {
    assert (s + [c])[..|s|] == s;
  }

  /** Exactly `width` digits: `n` padded with zeros on the left, as `%Y`,
      `%m` and `%d` print a field that fits in `width` digits. */
  function FixedDigits(n: nat, width: nat): (s: string)
    ensures |s| == width && AllDigits(s)
    ensures n < Pow10(width) ==> ParseNat(s) == n
  {
    if width == 0 then ""
    else
      var prefix := FixedDigits(n / 10, width - 1);
      ParseNatAppend(prefix, DigitChar(n % 10));
      assert n < Pow10(width) ==> n / 10 < Pow10(width - 1);
      prefix + [DigitChar(n % 10)]
  }

  /** The shortest decimal form of `n`. */
  function NatToString(n: nat): (s: string)
    ensures |s| >= 1 && AllDigits(s)
    ensures ParseNat(s) == n
  {
    if n < 10 then
      assert [DigitChar(n)] == [] + [DigitChar(n)];
      ParseNatAppend([], DigitChar(n));
      [DigitChar(n)]
    else
      var prefix := NatToString(n / 10);
      ParseNatAppend(prefix, DigitChar(n % 10));
      prefix + [DigitChar(n % 10)]
  }

  /** The integer literals Python's `int()` accepts in the form the model
      covers: an optional sign followed by at least one ASCII digit. */
  predicate IsIntLiteral(s: string) {
    || (|s| >= 1 && AllDigits(s))
    || (|s| >= 2 && (s[0] == '-' || s[0] == '+') && AllDigits(s[1..]))
  }

  /** `int(s)` on a string cell, or None where Python raises ValueError. */
  function ParseInt(s: string): (r: Option<int>)
    ensures r.Some? <==> IsIntLiteral(s)
  {
    if |s| >= 1 && AllDigits(s) then Some(ParseNat(s))
    else if |s| >= 2 && s[0] == '-' && AllDigits(s[1..]) then Some(-(ParseNat(s[1..]) as int))
    else if |s| >= 2 && s[0] == '+' && AllDigits(s[1..]) then Some(ParseNat(s[1..]))
    else None
  }

  /** A leading zero does not change the number a digit string denotes. */
  lemma {:induction false} ParseNatLeadingZero(t: string)
    requires AllDigits(t)
    ensures AllDigits("0" + t) && ParseNat("0" + t) == ParseNat(t)
    decreases |t|
  {
    assert AllDigits("0" + t) by {
      forall i | 0 <= i < |"0" + t|
        ensures IsDigit(("0" + t)[i])
      {
        if i > 0 { assert ("0" + t)[i] == t[i - 1]; }
      }
    }
    if t == [] {
      assert ParseNat("0") == ParseNat([]) * 10 + DigitValue('0') by {
        ParseNatAppend([], '0');
        assert [] + ['0'] == "0";
      }
    } else {
      var init, last := t[..|t| - 1], t[|t| - 1];
      assert AllDigits(init) by {
        forall i | 0 <= i < |init|
          ensures IsDigit(init[i])
        {
          assert init[i] == t[i];
        }
      }
      ParseNatLeadingZero(init);
      assert t == init + [last];
      assert "0" + t == ("0" + init) + [last];
      ParseNatAppend(init, last);
      ParseNatAppend("0" + init, last);
    }
  }

  /** `int("+5") == int("5")`, `int("-5") == -int("5")` and `int("-0") == 0`:
      a sign in front of a digit string keeps or negates its value. */
  lemma ParseIntSign(s: string)
    requires |s| >= 2 && (s[0] == '+' || s[0] == '-') && AllDigits(s[1..])
    ensures ParseInt(s[1..]) == Some(ParseNat(s[1..]))
    ensures ParseInt(s) == if s[0] == '-' then Some(-ParseInt(s[1..]).value) else ParseInt(s[1..])
  {
    assert !AllDigits(s) by { assert !IsDigit(s[0]); }
  }

  /** `int("05") == int("5")`: a leading zero does not change the value. */
  lemma ParseIntLeadingZero(t: string)
    requires |t| >= 1 && AllDigits(t)
    ensures ParseInt(t) == Some(ParseNat(t))
    ensures ParseInt("0" + t) == ParseInt(t)
  {
    ParseNatLeadingZero(t);
  }

  /** The decimal form `str()` gives an integer. */
  function ShowInt(i: int): (s: string)
    ensures IsIntLiteral(s)
  {
    if i < 0 then "-" + NatToString(-i) else NatToString(i)
  }

  /** Every integer survives being written out and parsed back. */
  lemma ParseShowInt(i: int)
    ensures ParseInt(ShowInt(i)) == Some(i)
  {
    if i < 0 {
      var t := NatToString(-i);
      assert ("-" + t)[1..] == t;
      assert !AllDigits("-" + t) by { assert !IsDigit(("-" + t)[0]); }
    }
  }

  // ------------------------------------------------------------- search

  /** The first position of `c` in `s`, if any. */
  function IndexOf(s: string, c: char): (r: Option<nat>)
    ensures r.Some? ==> r.value < |s| && s[r.value] == c && c !in s[..r.value]
    ensures r.None? ==> c !in s
  {
    if s == [] then None
    else if s[0] == c then Some(0)
    else match IndexOf(s[1..], c)
      case None => None
      case Some(j) =>
        assert s[..j + 1] == [s[0]] + s[1..][..j];
        Some(j + 1)
  }

  /** The first `c` in `a + [c] + b` is the one after `a` when `a` has none. */
  lemma IndexOfJoin(a: string, c: char, b: string)
    requires c !in a
    ensures IndexOf(a + [c] + b, c) == Some(|a|)
  {
    var s := a + [c] + b;
    var r := IndexOf(s, c);
    assert s[|a|] == c;
    assert forall j :: 0 <= j < |a| ==> s[j] == a[j];
    assert r.value >= |a|;
  }
}

=== FILE: frames.dfy ===
/**
 The two table shapes of the transform. A `Frame` is what `pd.json_normalize`
 builds and the rename, coercion and rewrite stages reshape: rows over a SET
 of columns, since the order they carry before projection never reaches the
 output. A `Table` is what reindexing to the final schema produces: rows over
 an ORDERED column list.
 */
module Frames {

  import opened Values

  /** One input record, already flattened to dotted-path field names. */
  type Record = map<string, Value>

  datatype Frame = Frame(columns: set<string>, rows: seq<Row>)

  /** Every row has a cell for exactly the frame's columns. */
  predicate WellFormed(f: Frame) {
    forall i :: 0 <= i < |f.rows| ==> f.rows[i].Keys == f.columns
  }

  datatype Table = Table(columns: seq<string>, rows: seq<Row>)

  function ColumnSet(columns: seq<string>): (s: set<string>)
    ensures forall c :: c in s <==> c in columns
  {
    set c | c in columns
  }

  /** Every row has a cell for exactly the table's columns. */
  predicate Conforms(t: Table) {
    forall i :: 0 <= i < |t.rows| ==> t.rows[i].Keys == ColumnSet(t.columns)
  }

  /** The union of the field names of all records. */
  function KeysOf(records: seq<Record>): (keys: set<string>)
    ensures forall i, k :: 0 <= i < |records| && k in records[i] ==> k in keys
    ensures forall k :: k in keys ==> exists i :: 0 <= i < |records| && k in records[i]
  {
    set i, k | 0 <= i < |records| && k in records[i] :: k
  }

  /** A record widened to `columns`, a missing field becoming null. */
  function Widen(r: Record, columns: set<string>): Row {
    map c | c in columns :: if c in r then r[c] else Null
  }

  /** `pd.json_normalize` on a list of flat records: one row per record, one
      column per field name any record has, null where a record lacks it. */
  function Flatten(records: seq<Record>): (f: Frame)
    ensures WellFormed(f)
    ensures |f.rows| == |records|
    ensures f.columns == KeysOf(records)
    ensures forall i, k {:trigger f.rows[i][k]} :: 0 <= i < |records| && k in records[i] ==> f.rows[i][k] == records[i][k]
    ensures forall i, k :: 0 <= i < |records| && k in f.columns && k !in records[i] ==> f.rows[i][k] == Null
  {
    var columns := KeysOf(records);
    Frame(columns, seq(|records|, i requires 0 <= i < |records| => Widen(records[i], columns)))
  }

  /** `df.reindex(columns=schema)`: the rows restricted and extended to the
      schema, a schema column the frame lacks becoming null in every row. */
  function Reindex(f: Frame, schema: seq<string>): (t: Table)
    requires WellFormed(f)
    ensures t.columns == schema && Conforms(t)
    ensures |t.rows| == |f.rows|
    ensures forall i, c :: 0 <= i < |t.rows| && c in schema && c in f.columns ==> t.rows[i][c] == f.rows[i][c]
    ensures forall i, c :: 0 <= i < |t.rows| && c in schema && c !in f.columns ==> t.rows[i][c] == Null
  {
    Table(schema, seq(|f.rows|, i requires 0 <= i < |f.rows| =>
      map c | c in ColumnSet(schema) :: if c in f.columns then f.rows[i][c] else Null))
  }

  /** Reindexing a frame to a listing of exactly its own columns loses no
      cell: the table holds the frame's rows unchanged. */
  lemma ReindexToOwnColumns(f: Frame, schema: seq<string>)
    requires WellFormed(f) && ColumnSet(schema) == f.columns
    ensures Reindex(f, schema).rows == f.rows
  {
    var t := Reindex(f, schema);
    forall i | 0 <= i < |f.rows|
      ensures t.rows[i] == f.rows[i]
    {
      assert t.rows[i].Keys == f.rows[i].Keys;
    }
  }
}

=== FILE: metadata.dfy ===
/**
 `add_metadata`: the three run-constant columns every output row receives,
 and the two storage keys of a run, `YYYYMMDD/<tag>.csv` for the normalized
 table and `YYYYMMDD/<tag>.json` for the raw copy. The clock reading and the
 UUID string are parameters.
 */
module Metadata {

  import opened Values
  import opened Digits
  import opened Frames

  const DivisionColumn := "division"
  const DatetimeColumn := "normalization_datetime"
  const UuidColumn := "normalization_uuid"

  /** How many leading characters of the UUID string make the run tag. */
  const TagLength := 8

  const NormalizedExtension := "csv"
  const RawExtension := "json"

  // ------------------------------------------------------------- columns

  /** `df[name] = value`: every row gets `value` under `name`; a new name is
      appended after the existing columns, an existing one keeps its place. */
  function AddColumn(t: Table, name: string, value: Value): (r: Table)
    ensures |r.rows| == |t.rows|
    ensures name in t.columns ==> r.columns == t.columns
    ensures name !in t.columns ==> r.columns == t.columns + [name]
    ensures forall i :: 0 <= i < |t.rows| ==> r.rows[i] == t.rows[i][name := value]
  {
    var columns := if name in t.columns then t.columns else t.columns + [name];
    Table(columns, seq(|t.rows|, i requires 0 <= i < |t.rows| => t.rows[i][name := value]))
  }

  /** Adding a column to a conforming table gives a conforming table whose
      column set has grown by exactly that name. */
  lemma AddColumnConforms(t: Table, name: string, value: Value)
    requires Conforms(t)
    ensures Conforms(AddColumn(t, name, value))
    ensures ColumnSet(AddColumn(t, name, value).columns) == ColumnSet(t.columns) + {name}
  {
    var r := AddColumn(t, name, value);
    assert ColumnSet(r.columns) == ColumnSet(t.columns) + {name};
    forall i | 0 <= i < |r.rows|
      ensures r.rows[i].Keys == ColumnSet(r.columns)
    {
      assert r.rows[i].Keys == t.rows[i].Keys + {name};
    }
  }

  // ---------------------------------------------------------------- keys

  /** `str(uuid4())[:8]`: at most the first eight characters. */
  function Tag(uuid: string): (tag: string)
    ensures |tag| == if |uuid| < TagLength then |uuid| else TagLength
    ensures tag == uuid[..|tag|]
  {
    if |uuid| < TagLength then uuid else uuid[..TagLength]
  }

  /** `strftime('%Y%m%d')`: year, month and day as 4, 2 and 2 digits. */
  function DateKey(t: Timestamp): (s: string)
    requires ValidTimestamp(t)
    ensures |s| == 8 && AllDigits(s)
    ensures AllDigits(s[..4]) && ParseNat(s[..4]) == t.year
    ensures AllDigits(s[4..6]) && ParseNat(s[4..6]) == t.month
    ensures AllDigits(s[6..]) && ParseNat(s[6..]) == t.day
  {
    var y, m, d := FixedDigits(t.year, 4), FixedDigits(t.month, 2), FixedDigits(t.day, 2);
    var s := y + m + d;
    assert s[..4] == y && s[4..6] == m && s[6..] == d;
    s
  }

  /** The key of a run's file with a given extension. */
  function Key(now: Timestamp, tag: string, extension: string): string
    requires ValidTimestamp(now)
  {
    DateKey(now) + "/" + tag + "." + extension
  }

  /** The two keys of a run and the table with its metadata columns. */
  datatype Stamped = Stamped(table: Table, normalizedKey: string, rawKey: string)

  /** `add_metadata(df)` with the clock reading `now` and the UUID string
      `uuid`: the division, the timestamp and the tag in every row, and the
      two keys that share the date and the tag. */
  function AddMetadata(t: Table, division: string, now: Timestamp, uuid: string): (r: Stamped)
    requires ValidTimestamp(now)
    ensures |r.table.rows| == |t.rows|
    ensures |t.columns| <= |r.table.columns| && r.table.columns[..|t.columns|] == t.columns
    ensures DivisionColumn !in t.columns && DatetimeColumn !in t.columns && UuidColumn !in t.columns ==>
      r.table.columns == t.columns + [DivisionColumn, DatetimeColumn, UuidColumn]
    ensures Conforms(t) ==> Conforms(r.table)
    ensures forall i :: 0 <= i < |t.rows| ==>
      r.table.rows[i] == t.rows[i][DivisionColumn := Str(division)][DatetimeColumn := Stamp(now)][UuidColumn := Str(Tag(uuid))]
    ensures r.normalizedKey == Key(now, Tag(uuid), NormalizedExtension)
    ensures r.rawKey == Key(now, Tag(uuid), RawExtension)
  {
    var withDivision := AddColumn(t, DivisionColumn, Str(division));
    var withDatetime := AddColumn(withDivision, DatetimeColumn, Stamp(now));
    var stamped := AddColumn(withDatetime, UuidColumn, Str(Tag(uuid)));
    assert Conforms(t) ==> Conforms(stamped) by {
      if Conforms(t) {
        AddColumnConforms(t, DivisionColumn, Str(division));
        AddColumnConforms(withDivision, DatetimeColumn, Stamp(now));
        AddColumnConforms(withDatetime, UuidColumn, Str(Tag(uuid)));
      }
    }
    assert stamped.columns[..|t.columns|] == t.columns;
    Stamped(stamped, Key(now, Tag(uuid), NormalizedExtension), Key(now, Tag(uuid), RawExtension))
  }

  /** Every row holds the configured division, the run's timestamp and the
      run's tag; all its other cells are those it had. */
  lemma MetadataCells(t: Table, division: string, now: Timestamp, uuid: string, i: int)
    requires ValidTimestamp(now) && 0 <= i < |t.rows|
    ensures var row := AddMetadata(t, division, now, uuid).table.rows[i];
      && row.Keys == t.rows[i].Keys + {DivisionColumn, DatetimeColumn, UuidColumn}
      && row[DivisionColumn] == Str(division)
      && row[DatetimeColumn] == Stamp(now)
      && row[UuidColumn] == Str(Tag(uuid))
      && forall c :: c in t.rows[i] && c !in {DivisionColumn, DatetimeColumn, UuidColumn} ==> row[c] == t.rows[i][c]
  {
  }

  /** The metadata columns hold one value across all rows, none of them
      null. */
  lemma MetadataUniform(t: Table, division: string, now: Timestamp, uuid: string, i: int, j: int)
    requires ValidTimestamp(now) && 0 <= i < |t.rows| && 0 <= j < |t.rows|
    ensures var s := AddMetadata(t, division, now, uuid).table;
      && DivisionColumn in s.rows[i] && DatetimeColumn in s.rows[i] && UuidColumn in s.rows[i]
      && DivisionColumn in s.rows[j] && DatetimeColumn in s.rows[j] && UuidColumn in s.rows[j]
      && s.rows[i][DivisionColumn] == s.rows[j][DivisionColumn] && s.rows[i][DivisionColumn] != Null
      && s.rows[i][DatetimeColumn] == s.rows[j][DatetimeColumn] && s.rows[i][DatetimeColumn] != Null
      && s.rows[i][UuidColumn] == s.rows[j][UuidColumn] && s.rows[i][UuidColumn] != Null
  {
    MetadataCells(t, division, now, uuid, i);
    MetadataCells(t, division, now, uuid, j);
  }

  // -------------------------------------------------------- reading keys

  /** What a key says: the date, the tag and the extension. */
  datatype KeyParts = KeyParts(year: nat, month: nat, day: nat, tag: string, extension: string)

  /** Reads a key of the form `YYYYMMDD/<tag>.<extension>`, the tag ending
      at the first dot. */
  function ParseKey(key: string): Option<KeyParts> {
    if |key| < 9 || !AllDigits(key[..4]) || !AllDigits(key[4..6]) || !AllDigits(key[6..8]) || key[8] != '/' then None
    else
      var rest := key[9..];
      match IndexOf(rest, '.')
      case None => None
      case Some(d) =>
        Some(KeyParts(ParseNat(key[..4]), ParseNat(key[4..6]), ParseNat(key[6..8]), rest[..d], rest[d + 1..]))
  }

  /** A key gives back the date, the tag and the extension it was built
      from, provided the tag holds no dot. */
  lemma KeyRoundTrip(now: Timestamp, tag: string, extension: string)
    requires ValidTimestamp(now) && '.' !in tag
    ensures ParseKey(Key(now, tag, extension)) ==
      Some(KeyParts(now.year, now.month, now.day, tag, extension))
  {
    var date := DateKey(now);
    var rest := tag + ['.'] + extension;
    assert Key(now, tag, extension) == date + ['/'] + rest;
    KeySlices(date, rest);
    IndexOfJoin(tag, '.', extension);
    assert rest[..|tag|] == tag;
    assert rest[|tag| + 1..] == extension;
  }

  /** The slices of `date + "/" + rest` that ParseKey reads. */
  lemma KeySlices(date: string, rest: string)
    requires |date| == 8
    ensures var key := date + ['/'] + rest;
      && |key| >= 9 && key[8] == '/' && key[9..] == rest
      && key[..4] == date[..4] && key[4..6] == date[4..6] && key[6..8] == date[6..]
  {
    var key := date + ['/'] + rest;
    assert key[..8] == date;
  }

  // --------------------------------------------------------------- UUIDs

  predicate IsHexDigit(c: char) {
    IsDigit(c) || 'a' <= c <= 'f'
  }

  /** The text form `str(uuid4())` produces: 36 characters, lower-case hex
      digits with hyphens at positions 8, 13, 18 and 23. */
  predicate IsCanonicalUuid(u: string) {
    && |u| == 36
    && forall i :: 0 <= i < 36 ==>
         if i == 8 || i == 13 || i == 18 || i == 23 then u[i] == '-' else IsHexDigit(u[i])
  }

  /** The tag of a canonical UUID is its first group: eight hex digits. */
  lemma CanonicalTag(u: string)
    requires IsCanonicalUuid(u)
    ensures |Tag(u)| == TagLength
    ensures forall i :: 0 <= i < |Tag(u)| ==> IsHexDigit(Tag(u)[i])
    ensures '.' !in Tag(u) && '/' !in Tag(u)
  {
    var tag := Tag(u);
    forall i | 0 <= i < |tag|
      ensures IsHexDigit(tag[i])
    {
      assert tag[i] == u[i];
    }
  }

  /** The two keys of a run of `add_metadata` with a canonical UUID read
      back as the run's date and tag, differing only in the extension. */
  lemma RunKeys(t: Table, division: string, now: Timestamp, uuid: string)
    requires ValidTimestamp(now) && IsCanonicalUuid(uuid)
    ensures var r := AddMetadata(t, division, now, uuid);
      && ParseKey(r.normalizedKey) == Some(KeyParts(now.year, now.month, now.day, Tag(uuid), NormalizedExtension))
      && ParseKey(r.rawKey) == Some(KeyParts(now.year, now.month, now.day, Tag(uuid), RawExtension))
  {
    CanonicalTag(uuid);
    KeyRoundTrip(now, Tag(uuid), NormalizedExtension);
    KeyRoundTrip(now, Tag(uuid), RawExtension);
  }
}

=== FILE: normalize.dfy ===
/**
 `normalize_data` of the three normalizer classes as one transform: flatten
 the records, rename columns by `relevant_columns`, optionally coerce the
 `integer_columns` to whole numbers, rewrite the categorical `winner` column
 by a policy, then project onto the ordered `final_schema`.
 */
module Normalize {

  import opened Values
  import opened Digits
  import opened Frames

  const Winner := "winner"
  const HomeTeam := "home_team"
  const AwayTeam := "away_team"

  /** The label a drawn match's winner is rewritten to. */
  const DrawLabel := "<draw>"

  /** The per-deployment configuration document. */
  datatype Config = Config(
    division: string,
    relevantColumns: map<string, string>,
    integerColumns: seq<string>,
    finalSchema: seq<string>)

  /** How the `winner` column is rewritten: only draws, or home and away
      wins replaced by the team names first. */
  datatype Policy = DrawOnly | TeamSubstitution

  datatype Variant = Variant(coerceIntegers: bool, policy: Policy)

  /** The three normalizer classes of the repository. */
  datatype NormalizerClass = Normalizer | WWCNormalizer | Ligue1Normalizer

  function VariantOf(k: NormalizerClass): (v: Variant)
    ensures v.coerceIntegers <==> v.policy == DrawOnly
    ensures v.policy == TeamSubstitution <==> k == Ligue1Normalizer
  {
    match k
    case Normalizer => Variant(true, DrawOnly)
    case WWCNormalizer => Variant(true, DrawOnly)
    case Ligue1Normalizer => Variant(false, TeamSubstitution)
  }

  // ---------------------------------------------------------------- rename

  /** The name column `c` carries after `df.rename(columns=m)`. */
  function NewName(m: map<string, string>, c: string): string {
    if c in m then m[c] else c
  }

  /** No two of `columns` end up with the same name. */
  predicate Injective(m: map<string, string>, columns: set<string>) {
    forall a, b :: a in columns && b in columns && a != b ==> NewName(m, a) != NewName(m, b)
  }

  function Renamed(m: map<string, string>, columns: set<string>): (names: set<string>)
    ensures forall k :: k in columns ==> NewName(m, k) in names
    ensures forall c :: c in names ==> exists k :: k in columns && NewName(m, k) == c
  {
    set k | k in columns :: NewName(m, k)
  }

  function RenameRow(m: map<string, string>, r: Row): (r': Row)
    requires Injective(m, r.Keys)
    ensures r'.Keys == Renamed(m, r.Keys)
    ensures forall k :: k in r ==> r'[NewName(m, k)] == r[k]
  {
    map k | k in r.Keys :: NewName(m, k) := r[k]
  }

  /** `df.rename(columns=m)`. A rename that makes two labels equal leaves a
      frame that pandas refuses to reindex, so it is an error here. */
  function Rename(f: Frame, m: map<string, string>): (r: Result<Frame>)
    requires WellFormed(f)
    ensures r.Ok? <==> Injective(m, f.columns)
    ensures r.Err? ==> r.error == DuplicateColumns
    ensures r.Ok? ==> WellFormed(r.value) && |r.value.rows| == |f.rows|
    ensures r.Ok? ==> r.value.columns == Renamed(m, f.columns)
    ensures r.Ok? ==> forall i, k {:trigger f.rows[i][k]} :: 0 <= i < |f.rows| && k in f.columns ==>
      r.value.rows[i][NewName(m, k)] == f.rows[i][k]
  {
    if !Injective(m, f.columns) then Err(DuplicateColumns)
    else Ok(Frame(Renamed(m, f.columns),
                  seq(|f.rows|, i requires 0 <= i < |f.rows| => RenameRow(m, f.rows[i]))))
  }

  // -------------------------------------------------------------- coercion

  /** The range of the 64-bit integers `astype('int')` converts to. */
  const Int64Min := -0x8000_0000_0000_0000
  const Int64Max := 0x7FFF_FFFF_FFFF_FFFF

  predicate InInt64(n: int) {
    Int64Min <= n <= Int64Max
  }

  /** `fillna(0).astype('int')` on one cell: None where pandas raises,
      which includes a value outside the 64-bit range (OverflowError). */
  function Coerce(v: Value): (r: Option<int>)
    ensures r.Some? ==> InInt64(r.value)
    ensures v.Null? ==> r == Some(0)
    ensures v.Stamp? ==> r.None?
    ensures v.Str? && r.Some? ==> IsIntLiteral(v.s)
    ensures v.Int? ==> (r.Some? <==> InInt64(v.i)) && (r.Some? ==> r.value == v.i)
    ensures v.Str? && IsIntLiteral(v.s) ==>
      (r.Some? <==> InInt64(ParseInt(v.s).value)) && (r.Some? ==> r == ParseInt(v.s))
  {
    match v
    case Null => Some(0)
    case Int(n) => if InInt64(n) then Some(n) else None
    case Str(s) =>
      match ParseInt(s) {
        case Some(n) => if InInt64(n) then Some(n) else None
        case None => None
      }
    case Stamp(_) => None
  }

  /** A cell holding an integer and a cell holding its decimal text coerce
      alike: to that integer inside the 64-bit range, and not at all
      outside it. */
  lemma CoerceText(n: int)
    ensures Coerce(Str(ShowInt(n))) == Coerce(Int(n))
    ensures Coerce(Int(n)).Some? <==> InInt64(n)
    ensures InInt64(n) ==> Coerce(Str(ShowInt(n))) == Some(n)
  {
    ParseShowInt(n);
  }

  function CoerceColumn(rows: seq<Row>, c: string): (r: Result<seq<Row>>)
    requires forall i :: 0 <= i < |rows| ==> c in rows[i]
    ensures r.Ok? <==> forall i :: 0 <= i < |rows| ==> Coerce(rows[i][c]).Some?
    ensures r.Err? ==> r.error == NotAnInteger(c)
    ensures r.Ok? ==> |r.value| == |rows|
    ensures r.Ok? ==> forall i :: 0 <= i < |rows| ==>
      r.value[i] == rows[i][c := Int(Coerce(rows[i][c]).value)]
  {
    if exists i :: 0 <= i < |rows| && Coerce(rows[i][c]).None? then Err(NotAnInteger(c))
    else Ok(seq(|rows|, i requires 0 <= i < |rows| => rows[i][c := Int(Coerce(rows[i][c]).value)]))
  }

  /** The integer columns coerced one after another, as `astype` converts a
      frame column by column: the error names the first column, in the
      configured order, holding a cell that is not a number. */
  function CoerceColumns(rows: seq<Row>, cols: seq<string>): (r: Result<seq<Row>>)
    requires forall i, c :: 0 <= i < |rows| && c in cols ==> c in rows[i]
    ensures r.Ok? <==> forall i, c :: 0 <= i < |rows| && c in cols ==> Coerce(rows[i][c]).Some?
    ensures r.Err? ==> exists j :: 0 <= j < |cols| && r.error == NotAnInteger(cols[j])
    ensures r.Ok? ==> |r.value| == |rows|
    ensures r.Ok? ==> forall i :: 0 <= i < |rows| ==> r.value[i].Keys == rows[i].Keys
    ensures r.Ok? ==> forall i, c :: 0 <= i < |rows| && c in cols ==>
      r.value[i][c] == Int(Coerce(rows[i][c]).value)
    ensures r.Ok? ==> forall i, c :: 0 <= i < |rows| && c in rows[i] && c !in cols ==>
      r.value[i][c] == rows[i][c]
    decreases |cols|
  {
    if cols == [] then Ok(rows)
    else
      assert cols[0] in cols;
      assert forall c :: c in cols <==> c == cols[0] || c in cols[1..];
      match CoerceColumn(rows, cols[0])
      case Err(e) => Err(e)
      case Ok(rows1) =>
        assert forall i :: 0 <= i < |rows| ==> rows1[i].Keys == rows[i].Keys;
        var r := CoerceColumns(rows1, cols[1..]);
        assert r.Ok? ==> forall i, c :: 0 <= i < |rows| && c in cols ==>
          r.value[i][c] == Int(Coerce(rows[i][c]).value)
        by {
          if r.Ok? {
            forall i, c | 0 <= i < |rows| && c in cols
              ensures r.value[i][c] == Int(Coerce(rows[i][c]).value)
            {
              if c != cols[0] {
                assert rows1[i][c] == rows[i][c];
              } else if c !in cols[1..] {
                assert r.value[i][c] == rows1[i][c];
              }
            }
          }
        }
        assert r.Err? ==> exists j :: 0 <= j < |cols| && r.error == NotAnInteger(cols[j]) by {
          if r.Err? {
            var j :| 0 <= j < |cols[1..]| && r.error == NotAnInteger(cols[1..][j]);
            assert cols[1..][j] == cols[j + 1];
          }
        }
        r
  }

  /** The configured names that are not among `present`, in configured order. */
  function Missing(cols: seq<string>, present: set<string>): (names: seq<string>)
    ensures forall c :: c in names <==> c in cols && c !in present
  {
    if cols == [] then []
    else (if cols[0] in present then [] else [cols[0]]) + Missing(cols[1..], present)
  }

  /** `df[cols] = df[cols].fillna(0).astype('int')`: a configured column the
      frame lacks is a KeyError before anything is converted. */
  function CoerceIntegers(f: Frame, cols: seq<string>): (r: Result<Frame>)
    requires WellFormed(f)
    ensures r.Ok? <==>
      && (forall j :: 0 <= j < |cols| ==> cols[j] in f.columns)
      && (forall i, j :: 0 <= i < |f.rows| && 0 <= j < |cols| ==> Coerce(f.rows[i][cols[j]]).Some?)
    ensures (exists j :: 0 <= j < |cols| && cols[j] !in f.columns) ==>
      r == Err(MissingColumns(Missing(cols, f.columns)))
    ensures (forall j :: 0 <= j < |cols| ==> cols[j] in f.columns) && r.Err? ==>
      exists j :: 0 <= j < |cols| && r.error == NotAnInteger(cols[j])
    ensures r.Ok? ==> WellFormed(r.value) && r.value.columns == f.columns
    ensures r.Ok? ==> |r.value.rows| == |f.rows|
    ensures r.Ok? ==> forall i, j :: 0 <= i < |f.rows| && 0 <= j < |cols| ==>
      r.value.rows[i][cols[j]] == Int(Coerce(f.rows[i][cols[j]]).value)
    ensures r.Ok? ==> forall i, c :: 0 <= i < |f.rows| && c in f.columns && c !in cols ==>
      r.value.rows[i][c] == f.rows[i][c]
  {
    if exists j :: 0 <= j < |cols| && cols[j] !in f.columns then
      Err(MissingColumns(Missing(cols, f.columns)))
    else
      var coerced := CoerceColumns(f.rows, cols);
      assert forall j :: 0 <= j < |cols| ==> cols[j] in cols;
      assert coerced.Ok? <==>
        forall i, j :: 0 <= i < |f.rows| && 0 <= j < |cols| ==> Coerce(f.rows[i][cols[j]]).Some?
      by {
        if !coerced.Ok? {
          var i, c :| 0 <= i < |f.rows| && c in cols && Coerce(f.rows[i][c]).None?;
          var j :| 0 <= j < |cols| && cols[j] == c;
        }
      }
      match coerced
      case Err(e) => Err(e)
      case Ok(rows) => Ok(Frame(f.columns, rows))
  }

  // ------------------------------------------------------- winner rewrite

  /** `df.loc[df["winner"] == "D", "winner"] = "<draw>"` on one cell. */
  function MarkDraw(v: Value): Value {
    if v == Str("D") then Str(DrawLabel) else v
  }

  function MarkDraws(rows: seq<Row>): (r: seq<Row>)
    requires forall i :: 0 <= i < |rows| ==> Winner in rows[i]
    ensures |r| == |rows|
    ensures forall i :: 0 <= i < |rows| ==> r[i] == rows[i][Winner := MarkDraw(rows[i][Winner])]
  {
    seq(|rows|, i requires 0 <= i < |rows| => rows[i][Winner := MarkDraw(rows[i][Winner])])
  }

  /** One team-substitution pass: every row whose winner is `code` takes the
      value of its own `source` column as winner. */
  function Substitute(rows: seq<Row>, code: string, source: string): (r: seq<Row>)
    requires forall i :: 0 <= i < |rows| ==> Winner in rows[i] && source in rows[i]
    ensures |r| == |rows|
    ensures forall i :: 0 <= i < |rows| ==>
      r[i] == if rows[i][Winner] == Str(code) then rows[i][Winner := rows[i][source]] else rows[i]
  {
    seq(|rows|, i requires 0 <= i < |rows| =>
      if rows[i][Winner] == Str(code) then rows[i][Winner := rows[i][source]] else rows[i])
  }

  /** The team-substitution outcome, case by case on the ORIGINAL winner:
      an independent statement of what the three sequential passes do. */
  function TeamOutcome(winner: Value, home: Value, away: Value): Value {
    if winner == Str("H") then
      (if home == Str("A") then MarkDraw(away) else MarkDraw(home))
    else if winner == Str("A") then MarkDraw(away)
    else MarkDraw(winner)
  }

  /** The rewritten winner of a row under a policy. */
  function WinnerOutcome(policy: Policy, row: Row): Value
    requires Winner in row
    requires policy == TeamSubstitution ==> HomeTeam in row && AwayTeam in row
  {
    match policy
    case DrawOnly => MarkDraw(row[Winner])
    case TeamSubstitution => TeamOutcome(row[Winner], row[HomeTeam], row[AwayTeam])
  }

  /** The `winner` rewrite of the two policies. Draw-only indexes `winner`;
      team substitution also indexes `home_team` and `away_team`, and applies
      its three passes each to the value the previous pass left. */
  function RewriteWinner(f: Frame, policy: Policy): (r: Result<Frame>)
    requires WellFormed(f)
    ensures r.Ok? <==>
      Winner in f.columns && (policy == TeamSubstitution ==> HomeTeam in f.columns && AwayTeam in f.columns)
    ensures Winner !in f.columns ==> r == Err(MissingColumns([Winner]))
    ensures r.Ok? ==> WellFormed(r.value) && r.value.columns == f.columns
    ensures r.Ok? ==> |r.value.rows| == |f.rows|
    ensures r.Ok? ==> forall i :: 0 <= i < |f.rows| ==>
      r.value.rows[i][Winner] == WinnerOutcome(policy, f.rows[i])
    ensures r.Ok? ==> forall i, c :: 0 <= i < |f.rows| && c in f.columns && c != Winner ==>
      r.value.rows[i][c] == f.rows[i][c]
  {
    if Winner !in f.columns then Err(MissingColumns([Winner]))
    else
      match policy
      case DrawOnly => Ok(Frame(f.columns, MarkDraws(f.rows)))
      case TeamSubstitution =>
        if HomeTeam !in f.columns then Err(MissingColumns([HomeTeam]))
        else if AwayTeam !in f.columns then Err(MissingColumns([AwayTeam]))
        else
          var homeWins := Substitute(f.rows, "H", HomeTeam);
          var awayWins := Substitute(homeWins, "A", AwayTeam);
          Ok(Frame(f.columns, MarkDraws(awayWins)))
  }

  // ------------------------------------------------------------ the stages

  /** The frame `normalize_data` holds after flattening, renaming and, when
      the variant coerces, integer coercion. */
  function Prepare(v: Variant, config: Config, records: seq<Record>): (r: Result<Frame>)
    ensures r.Ok? ==> WellFormed(r.value) && |r.value.rows| == |records|
    ensures r.Ok? ==> r.value.columns == Renamed(config.relevantColumns, KeysOf(records))
  {
    var renamed :- Rename(Flatten(records), config.relevantColumns);
    if v.coerceIntegers then CoerceIntegers(renamed, config.integerColumns) else Ok(renamed)
  }

  /** `normalize_data`: flatten, rename, coerce (when the variant does),
      rewrite the winner, project onto the final schema. */
  function NormalizeData(v: Variant, config: Config, records: seq<Record>): (r: Result<Table>)
    ensures r.Ok? ==> r.value.columns == config.finalSchema && Conforms(r.value)
    ensures r.Ok? ==> |r.value.rows| == |records|
  {
    var prepared :- Prepare(v, config, records);
    var rewritten :- RewriteWinner(prepared, v.policy);
    Ok(Reindex(rewritten, config.finalSchema))
  }
}

=== FILE: normalize_props.dfy ===
/**
 Consequences of the reference semantics for single cells of the output of
 `normalize_data`: pass-through of renamed fields, null for absent columns,
 whole numbers in integer columns, and the two `winner` rewrite policies.
 */
module NormalizeProps {

  import opened Values
  import opened Digits
  import opened Frames
  import opened Normalize
  import opened NormalizeSpec

  /** With an injective rename map, the reference value record `i` gives the
      column field `k` is renamed to is the value of `k`. */
  lemma FieldValue(config: Config, records: seq<Record>, i: int, k: string)
    requires Injective(config.relevantColumns, KeysOf(records))
    requires 0 <= i < |records| && k in records[i]
    ensures SourceValue(config.relevantColumns, records[i], NewName(config.relevantColumns, k)) == records[i][k]
  {
    var m := config.relevantColumns;
    var r := records[i];
    forall k' | k' in r && NewName(m, k') == NewName(m, k)
      ensures k' == k
    {
      assert k' in KeysOf(records) && k in KeysOf(records);
    }
    SourceValueOf(m, r, NewName(m, k), k);
  }

  /** A field that is neither the winner nor coerced reaches the output
      unchanged, under its new name. */
  lemma PassThrough(v: Variant, config: Config, records: seq<Record>, i: int, k: string)
    requires Accepts(v, config, records) && 0 <= i < |records| && k in records[i]
    requires NewName(config.relevantColumns, k) in config.finalSchema
    requires NewName(config.relevantColumns, k) != Winner
    requires !(v.coerceIntegers && NewName(config.relevantColumns, k) in config.integerColumns)
    ensures NormalizeData(v, config, records).Ok?
    ensures NormalizeData(v, config, records).value.rows[i][NewName(config.relevantColumns, k)] == records[i][k]
  {
    CellCorrect(v, config, records, i, NewName(config.relevantColumns, k));
    FieldValue(config, records, i, k);
  }

  /** A schema column that no field is renamed to is null in every row. */
  lemma AbsentIsNull(v: Variant, config: Config, records: seq<Record>, c: string)
    requires Accepts(v, config, records) && c in config.finalSchema
    requires c !in Renamed(config.relevantColumns, KeysOf(records))
    ensures NormalizeData(v, config, records).Ok?
    ensures forall i :: 0 <= i < |records| ==> NormalizeData(v, config, records).value.rows[i][c] == Null
  {
    NormalizeCharacterized(v, config, records);
    forall i | 0 <= i < |records|
      ensures NormalizeData(v, config, records).value.rows[i][c] == Null
    {
      OutputCell(v, config, records, i, c);
    }
  }

  /** With coercion, an integer column holds a whole number in every row:
      the coerced value of the field renamed to it, and 0 when the record
      has no such field or the field is null. */
  lemma IntegerColumnCell(v: Variant, config: Config, records: seq<Record>, i: int, c: string)
    requires Accepts(v, config, records) && v.coerceIntegers && 0 <= i < |records|
    requires c in config.integerColumns && c in config.finalSchema && (c != Winner || v.policy == DrawOnly)
    ensures NormalizeData(v, config, records).Ok?
    ensures NormalizeData(v, config, records).value.rows[i][c].Int?
    ensures forall k :: k in records[i] && NewName(config.relevantColumns, k) == c ==>
      Coerce(records[i][k]) == Some(NormalizeData(v, config, records).value.rows[i][c].i)
    ensures (forall k :: k in records[i] && NewName(config.relevantColumns, k) == c ==> records[i][k] == Null) ==>
      NormalizeData(v, config, records).value.rows[i][c] == Int(0)
  {
    var m := config.relevantColumns;
    CellCorrect(v, config, records, i, c);
    if exists k :: k in records[i] && NewName(m, k) == c {
      var k :| k in records[i] && NewName(m, k) == c;
      FieldValue(config, records, i, k);
      assert k in KeysOf(records);
      forall k' | k' in records[i] && NewName(m, k') == c
        ensures k' == k
      {
        assert k' in KeysOf(records);
      }
    } else {
      SourceValueAbsent(m, records[i], c);
    }
  }

  /** Draw-only rewrite: a winner of "D" becomes "<draw>", every other
      winner value, null included, is left as it is. */
  lemma DrawOnlyWinner(v: Variant, config: Config, records: seq<Record>, i: int)
    requires Accepts(v, config, records) && v.policy == DrawOnly && 0 <= i < |records|
    requires Winner in config.finalSchema && !(v.coerceIntegers && Winner in config.integerColumns)
    ensures NormalizeData(v, config, records).Ok?
    ensures var w := SourceValue(config.relevantColumns, records[i], Winner);
      && (w == Str("D") ==> NormalizeData(v, config, records).value.rows[i][Winner] == Str(DrawLabel))
      && (w != Str("D") ==> NormalizeData(v, config, records).value.rows[i][Winner] == w)
  {
    CellCorrect(v, config, records, i, Winner);
  }

  /** Team-substitution rewrite as the Ligue 1 normalizer runs it: the three
      passes act on the winner each previous pass left, so a home win whose
      home team is called "A" ends as the away team, and a substituted team
      called "D" ends as "<draw>". */
  lemma TeamWinner(config: Config, records: seq<Record>, i: int)
    requires Accepts(VariantOf(Ligue1Normalizer), config, records) && 0 <= i < |records|
    requires Winner in config.finalSchema
    ensures NormalizeData(VariantOf(Ligue1Normalizer), config, records).Ok?
    ensures
      var m := config.relevantColumns;
      var w := SourceValue(m, records[i], Winner);
      var h := SourceValue(m, records[i], HomeTeam);
      var a := SourceValue(m, records[i], AwayTeam);
      var out := NormalizeData(VariantOf(Ligue1Normalizer), config, records).value.rows[i][Winner];
      && (w == Str("H") && h != Str("A") && h != Str("D") ==> out == h)
      && (w == Str("H") && h == Str("A") && a != Str("D") ==> out == a)
      && (w == Str("A") && a != Str("D") ==> out == a)
      && ((w == Str("D") || (w == Str("H") && (h == Str("D") || (h == Str("A") && a == Str("D"))))
           || (w == Str("A") && a == Str("D"))) ==> out == Str(DrawLabel))
      && (w != Str("H") && w != Str("A") && w != Str("D") ==> out == w)
  {
    CellCorrect(VariantOf(Ligue1Normalizer), config, records, i, Winner);
  }

  /** A string that does not start with a sign or a digit is no integer. */
  lemma NotANumber(s: string)
    requires |s| >= 1 && !IsDigit(s[0]) && s[0] != '-' && s[0] != '+'
    ensures Coerce(Str(s)).None?
  {
    assert !AllDigits(s);
  }

  /** Coercion runs before the winner rewrite: with `winner` configured as an
      integer column, a "D" winner fails coercion instead of being relabelled. */
  lemma CoercionBeforeRewrite(v: Variant, config: Config, records: seq<Record>, i: int, k: string)
    requires Injective(config.relevantColumns, KeysOf(records)) && v.coerceIntegers
    requires Winner in config.integerColumns
    requires 0 <= i < |records| && k in records[i] && NewName(config.relevantColumns, k) == Winner
    requires records[i][k] == Str("D")
    ensures NormalizeData(v, config, records).Err?
  {
    NotANumber("D");
    RejectsNonNumeric(v, config, records, i, k);
  }
}

=== FILE: normalize_spec.dfy ===
/**
 A record-at-a-time reference semantics of `normalize_data`, independent of
 the frame stages: which inputs the transform accepts, and what each output
 cell holds in terms of the one input record it comes from. The lemmas
 connect it to `Normalize.NormalizeData`.
 */
module NormalizeSpec {

  import opened Values
  import opened Frames
  import opened Normalize

  // ------------------------------------------------------ the reference

  /** The value of the field of `r` that the rename map sends to column `c`;
      null when there is none. */
  ghost function SourceValue(m: map<string, string>, r: Record, c: string): Value {
    if exists k :: k in r && NewName(m, k) == c then
      var k :| k in r && NewName(m, k) == c; r[k]
    else Null
  }

  /** The value of column `c` after renaming and, when the variant coerces
      and `c` is an integer column, coercion. */
  ghost function Staged(v: Variant, config: Config, r: Record, c: string): Value {
    var x := SourceValue(config.relevantColumns, r, c);
    if v.coerceIntegers && c in config.integerColumns && Coerce(x).Some? then Int(Coerce(x).value) else x
  }

  /** The output cell of column `c` for record `r`. */
  ghost function ExpectedCell(v: Variant, config: Config, r: Record, c: string): Value {
    if c != Winner then Staged(v, config, r, c)
    else match v.policy
      case DrawOnly => MarkDraw(Staged(v, config, r, Winner))
      case TeamSubstitution =>
        TeamOutcome(Staged(v, config, r, Winner), Staged(v, config, r, HomeTeam), Staged(v, config, r, AwayTeam))
  }

  /** The output row of record `r`: its cells over the final schema. */
  ghost function ExpectedRow(v: Variant, config: Config, r: Record): Row {
    map c | c in ColumnSet(config.finalSchema) :: ExpectedCell(v, config, r, c)
  }

  /** One output row per record, over the final schema. */
  ghost function ExpectedTable(v: Variant, config: Config, records: seq<Record>): Table {
    Table(config.finalSchema, seq(|records|, i requires 0 <= i < |records| => ExpectedRow(v, config, records[i])))
  }

  /** Every field renamed to an integer column is a number or null. */
  predicate IntegerFieldsCoercible(config: Config, records: seq<Record>) {
    forall i, k :: 0 <= i < |records| && k in records[i] && NewName(config.relevantColumns, k) in config.integerColumns ==>
      Coerce(records[i][k]).Some?
  }

  /** With coercion: every integer column exists after renaming, and every
      field renamed to one holds a number or null. */
  predicate IntegerStageAccepts(config: Config, records: seq<Record>) {
    && (forall j :: 0 <= j < |config.integerColumns| ==>
          config.integerColumns[j] in Renamed(config.relevantColumns, KeysOf(records)))
    && IntegerFieldsCoercible(config, records)
  }

  /** The inputs the transform accepts: the rename map keeps all field names
      apart; with coercion the integer stage accepts; `winner` exists after
      renaming, and so do both team columns under team substitution. */
  predicate Accepts(v: Variant, config: Config, records: seq<Record>) {
    var names := Renamed(config.relevantColumns, KeysOf(records));
    && Injective(config.relevantColumns, KeysOf(records))
    && (v.coerceIntegers ==> IntegerStageAccepts(config, records))
    && Winner in names
    && (v.policy == TeamSubstitution ==> HomeTeam in names && AwayTeam in names)
  }

  // ------------------------------------------------------- rename stage

  /** The field of `r` renamed to `c`, when it is the only one, gives the
      reference value. */
  lemma SourceValueOf(m: map<string, string>, r: Record, c: string, k: string)
    requires k in r && NewName(m, k) == c
    requires forall k' :: k' in r && NewName(m, k') == c ==> k' == k
    ensures SourceValue(m, r, c) == r[k]
  {
  }

  /** With no field of `r` renamed to `c`, the reference value is null. */
  lemma SourceValueAbsent(m: map<string, string>, r: Record, c: string)
    requires forall k' :: k' in r ==> NewName(m, k') != c
    ensures SourceValue(m, r, c) == Null
  {
  }

  /** After flattening and renaming, the cell of row `i` in column `c` is the
      value record `i` gives `c`; a column no field is renamed to is null in
      the reference. */
  lemma RenamedCell(m: map<string, string>, records: seq<Record>, i: int, c: string)
    requires Injective(m, KeysOf(records)) && 0 <= i < |records|
    ensures Rename(Flatten(records), m).Ok?
    ensures c in Renamed(m, KeysOf(records)) ==>
      Rename(Flatten(records), m).value.rows[i][c] == SourceValue(m, records[i], c)
    ensures c !in Renamed(m, KeysOf(records)) ==> SourceValue(m, records[i], c) == Null
  {
    var keys := KeysOf(records);
    var r := records[i];
    assert r.Keys <= keys;
    if c in Renamed(m, keys) {
      var k :| k in keys && NewName(m, k) == c;
      var flat := Flatten(records);
      assert Rename(flat, m).value.rows[i][c] == flat.rows[i][k];
      if k in r {
        SourceValueOf(m, r, c, k);
      } else {
        SourceValueAbsent(m, r, c);
      }
    } else {
      SourceValueAbsent(m, r, c);
    }
  }

  // ------------------------------------------------------ integer stage

  /** Coercion succeeds on a frame holding every integer column with only
      numbers and nulls in it. */
  lemma CoercionSucceeds(f: Frame, cols: seq<string>)
    requires WellFormed(f)
    requires forall j :: 0 <= j < |cols| ==> cols[j] in f.columns
    requires forall i, j :: 0 <= i < |f.rows| && 0 <= j < |cols| ==> Coerce(f.rows[i][cols[j]]).Some?
    ensures CoerceIntegers(f, cols).Ok?
  {
  }

  /** Coercion fails on a frame with a cell of an integer column that is
      neither a number nor null. */
  lemma CoercionFails(f: Frame, cols: seq<string>, i: int, j: int)
    requires WellFormed(f) && 0 <= i < |f.rows| && 0 <= j < |cols| && cols[j] in f.columns
    requires Coerce(f.rows[i][cols[j]]).None?
    ensures CoerceIntegers(f, cols).Err?
  {
  }

  lemma CoercibleCell(config: Config, records: seq<Record>, i: int, j: int)
    requires Injective(config.relevantColumns, KeysOf(records))
    requires IntegerFieldsCoercible(config, records)
    requires 0 <= i < |records| && 0 <= j < |config.integerColumns|
    requires config.integerColumns[j] in Renamed(config.relevantColumns, KeysOf(records))
    ensures Rename(Flatten(records), config.relevantColumns).Ok?
    ensures Coerce(Rename(Flatten(records), config.relevantColumns).value.rows[i][config.integerColumns[j]]).Some?
  {
    var m := config.relevantColumns;
    var c := config.integerColumns[j];
    RenamedCell(m, records, i, c);
    if exists k :: k in records[i] && NewName(m, k) == c {
      var k :| k in records[i] && NewName(m, k) == c;
      assert NewName(m, k) in config.integerColumns;
    }
  }

  /** The renaming and coercion stages succeed when the rename map is
      injective and the integer stage accepts. */
  lemma PreparesAll(v: Variant, config: Config, records: seq<Record>)
    requires Injective(config.relevantColumns, KeysOf(records))
    requires v.coerceIntegers ==> IntegerStageAccepts(config, records)
    ensures Rename(Flatten(records), config.relevantColumns).Ok?
    ensures v.coerceIntegers ==>
      CoerceIntegers(Rename(Flatten(records), config.relevantColumns).value, config.integerColumns).Ok?
    ensures Prepare(v, config, records).Ok?
  {
    if v.coerceIntegers {
      forall i, j | 0 <= i < |records| && 0 <= j < |config.integerColumns|
        ensures Rename(Flatten(records), config.relevantColumns).Ok?
        ensures Coerce(Rename(Flatten(records), config.relevantColumns).value.rows[i][config.integerColumns[j]]).Some?
      {
        CoercibleCell(config, records, i, j);
      }
      CoercionSucceeds(Rename(Flatten(records), config.relevantColumns).value, config.integerColumns);
    }
  }

  /** After coercion, the cell of row `i` in a column some field is renamed
      to is the staged value of record `i`. */
  lemma StagedCell(v: Variant, config: Config, records: seq<Record>, i: int, c: string)
    requires Accepts(v, config, records) && 0 <= i < |records|
    requires c in Renamed(config.relevantColumns, KeysOf(records))
    ensures Prepare(v, config, records).Ok?
    ensures Prepare(v, config, records).value.rows[i][c] == Staged(v, config, records[i], c)
  {
    RenamedCell(config.relevantColumns, records, i, c);
    PreparesAll(v, config, records);
    if v.coerceIntegers && c in config.integerColumns {
      CoercedCell(v, config, records, i, c);
    }
  }

  /** An integer-column cell after the coercion stage. */
  lemma CoercedCell(v: Variant, config: Config, records: seq<Record>, i: int, c: string)
    requires Accepts(v, config, records) && 0 <= i < |records|
    requires v.coerceIntegers && c in config.integerColumns
    requires c in Renamed(config.relevantColumns, KeysOf(records))
    ensures Prepare(v, config, records).Ok?
    ensures Rename(Flatten(records), config.relevantColumns).Ok?
    ensures Prepare(v, config, records).value.rows[i][c] ==
      Int(Coerce(Rename(Flatten(records), config.relevantColumns).value.rows[i][c]).value)
  {
    PreparesAll(v, config, records);
    var renamed := Rename(Flatten(records), config.relevantColumns).value;
    var j :| 0 <= j < |config.integerColumns| && config.integerColumns[j] == c;
    assert CoerceIntegers(renamed, config.integerColumns).value.rows[i][config.integerColumns[j]]
        == Int(Coerce(renamed.rows[i][config.integerColumns[j]]).value);
  }

  // ------------------------------------------------------------ errors

  /** A rename map that merges two field names makes the transform fail. */
  lemma RejectsDuplicates(v: Variant, config: Config, records: seq<Record>)
    requires !Injective(config.relevantColumns, KeysOf(records))
    ensures NormalizeData(v, config, records) == Err(DuplicateColumns)
  {
  }

  /** With coercion, an integer column that no field is renamed to makes the
      transform fail, naming every missing integer column. */
  lemma RejectsMissingIntegerColumns(v: Variant, config: Config, records: seq<Record>)
    requires Injective(config.relevantColumns, KeysOf(records)) && v.coerceIntegers
    requires exists j :: 0 <= j < |config.integerColumns| &&
                         config.integerColumns[j] !in Renamed(config.relevantColumns, KeysOf(records))
    ensures NormalizeData(v, config, records) ==
      Err(MissingColumns(Missing(config.integerColumns, Renamed(config.relevantColumns, KeysOf(records)))))
  {
  }

  /** With coercion, a field renamed to an integer column that holds neither
      a number nor null makes the transform fail. */
  lemma RejectsNonNumeric(v: Variant, config: Config, records: seq<Record>, i: int, k: string)
    requires Injective(config.relevantColumns, KeysOf(records)) && v.coerceIntegers
    requires 0 <= i < |records| && k in records[i]
    requires NewName(config.relevantColumns, k) in config.integerColumns
    requires Coerce(records[i][k]).None?
    ensures NormalizeData(v, config, records).Err?
  {
    var m := config.relevantColumns;
    var cols := config.integerColumns;
    var renamed := Rename(Flatten(records), m).value;
    var j :| 0 <= j < |cols| && cols[j] == NewName(m, k);
    RenamedCell(m, records, i, cols[j]);
    assert renamed.rows[i][cols[j]] == records[i][k];
    CoercionFails(renamed, cols, i, j);
  }

  /** A `winner` column, or under team substitution a team column, that no
      field is renamed to makes the transform fail with a missing column. */
  lemma RejectsMissingWinner(v: Variant, config: Config, records: seq<Record>)
    requires Injective(config.relevantColumns, KeysOf(records))
    requires v.coerceIntegers ==> IntegerStageAccepts(config, records)
    requires var names := Renamed(config.relevantColumns, KeysOf(records));
      !(Winner in names && (v.policy == TeamSubstitution ==> HomeTeam in names && AwayTeam in names))
    ensures NormalizeData(v, config, records).Err?
    ensures NormalizeData(v, config, records).error.MissingColumns?
  {
    PreparesAll(v, config, records);
  }

  /** A rejected input makes the transform fail. */
  lemma RejectsFail(v: Variant, config: Config, records: seq<Record>)
    requires !Accepts(v, config, records)
    ensures NormalizeData(v, config, records).Err?
  {
    var m := config.relevantColumns;
    var names := Renamed(m, KeysOf(records));
    if !Injective(m, KeysOf(records)) {
      RejectsDuplicates(v, config, records);
    } else if v.coerceIntegers && (exists j :: 0 <= j < |config.integerColumns| && config.integerColumns[j] !in names) {
      RejectsMissingIntegerColumns(v, config, records);
    } else if v.coerceIntegers && !IntegerFieldsCoercible(config, records) {
      var i, k :| 0 <= i < |records| && k in records[i] && NewName(m, k) in config.integerColumns && Coerce(records[i][k]).None?;
      RejectsNonNumeric(v, config, records, i, k);
    } else {
      RejectsMissingWinner(v, config, records);
    }
  }

  // -------------------------------------------------------- the output

  /** When both stages before the projection succeed, the transform's
      output is the rewritten frame reindexed to the final schema. */
  lemma NormalizeViaStages(v: Variant, config: Config, records: seq<Record>)
    requires Prepare(v, config, records).Ok?
    requires RewriteWinner(Prepare(v, config, records).value, v.policy).Ok?
    ensures NormalizeData(v, config, records) ==
      Ok(Reindex(RewriteWinner(Prepare(v, config, records).value, v.policy).value, config.finalSchema))
  {
  }

  /** One cell of a reindexed frame. */
  lemma ReindexCell(f: Frame, schema: seq<string>, i: int, c: string)
    requires WellFormed(f) && 0 <= i < |f.rows| && c in schema
    ensures Reindex(f, schema).rows[i][c] == if c in f.columns then f.rows[i][c] else Null
  {
  }

  /** The output cell of row `i`, column `c`, read off the frame the
      rewrite stage leaves: null when no field is renamed to `c`. */
  lemma OutputCell(v: Variant, config: Config, records: seq<Record>, i: int, c: string)
    requires Accepts(v, config, records) && 0 <= i < |records| && c in config.finalSchema
    ensures Prepare(v, config, records).Ok?
    ensures RewriteWinner(Prepare(v, config, records).value, v.policy).Ok?
    ensures NormalizeData(v, config, records).Ok?
    ensures NormalizeData(v, config, records).value.rows[i][c] ==
      if c in Renamed(config.relevantColumns, KeysOf(records))
      then RewriteWinner(Prepare(v, config, records).value, v.policy).value.rows[i][c]
      else Null
  {
    PreparesAll(v, config, records);
    var prepared := Prepare(v, config, records).value;
    var rewritten := RewriteWinner(prepared, v.policy).value;
    NormalizeViaStages(v, config, records);
    ReindexCell(rewritten, config.finalSchema, i, c);
  }

  /** One cell of the transform's output agrees with the reference. */
  lemma CellCorrect(v: Variant, config: Config, records: seq<Record>, i: int, c: string)
    requires Accepts(v, config, records) && 0 <= i < |records| && c in config.finalSchema
    ensures NormalizeData(v, config, records).Ok?
    ensures NormalizeData(v, config, records).value.rows[i][c] == ExpectedCell(v, config, records[i], c)
  {
    OutputCell(v, config, records, i, c);
    var m := config.relevantColumns;
    if c !in Renamed(m, KeysOf(records)) {
      RenamedCell(m, records, i, c);
    } else if c != Winner {
      StagedCell(v, config, records, i, c);
    } else {
      WinnerCellCorrect(v, config, records, i);
    }
  }

  /** The output `winner` cell agrees with the reference. */
  lemma WinnerCellCorrect(v: Variant, config: Config, records: seq<Record>, i: int)
    requires Accepts(v, config, records) && 0 <= i < |records|
    ensures Prepare(v, config, records).Ok?
    ensures RewriteWinner(Prepare(v, config, records).value, v.policy).Ok?
    ensures RewriteWinner(Prepare(v, config, records).value, v.policy).value.rows[i][Winner] ==
      ExpectedCell(v, config, records[i], Winner)
  {
    StagedCell(v, config, records, i, Winner);
    if v.policy == TeamSubstitution {
      StagedCell(v, config, records, i, HomeTeam);
      StagedCell(v, config, records, i, AwayTeam);
    }
  }

  /** One row of the transform's output agrees with the reference. */
  lemma RowCorrect(v: Variant, config: Config, records: seq<Record>, i: int)
    requires Accepts(v, config, records) && 0 <= i < |records|
    ensures NormalizeData(v, config, records).Ok?
    ensures NormalizeData(v, config, records).value.rows[i] == ExpectedRow(v, config, records[i])
  {
    PreparesAll(v, config, records);
    var row := NormalizeData(v, config, records).value.rows[i];
    var expected := ExpectedRow(v, config, records[i]);
    assert row.Keys == ColumnSet(config.finalSchema) == expected.Keys;
    forall c | c in expected
      ensures row[c] == expected[c]
    {
      CellCorrect(v, config, records, i, c);
    }
    MapsAgree(row, expected);
  }

  lemma MapsAgree(a: Row, b: Row)
    requires a.Keys == b.Keys
    requires forall c :: c in b ==> a[c] == b[c]
    ensures a == b
  {
  }

  /** The transform succeeds exactly on the inputs `Accepts` describes, and
      then produces one `ExpectedRow` per record, over the final schema. */
  lemma NormalizeCharacterized(v: Variant, config: Config, records: seq<Record>)
    ensures NormalizeData(v, config, records).Ok? <==> Accepts(v, config, records)
    ensures Accepts(v, config, records) ==>
      NormalizeData(v, config, records) == Ok(ExpectedTable(v, config, records))
  {
    if !Accepts(v, config, records) {
      RejectsFail(v, config, records);
      return;
    }
    PreparesAll(v, config, records);
    var t := NormalizeData(v, config, records).value;
    var e := ExpectedTable(v, config, records);
    assert |t.rows| == |e.rows|;
    forall i | 0 <= i < |e.rows|
      ensures t.rows[i] == e.rows[i]
    {
      RowCorrect(v, config, records, i);
    }
    SeqsAgree(t.rows, e.rows);
  }

  lemma SeqsAgree(a: seq<Row>, b: seq<Row>)
    requires |a| == |b|
    requires forall i :: 0 <= i < |b| ==> a[i] == b[i]
    ensures a == b
  {
  }
}

=== FILE: orchestrator.dfy ===
/**
 The `__call__` handler: read the JSON object the storage event names,
 normalize it, stamp the metadata, then put the table into the normalized
 bucket, copy the original object into the raw bucket, delete it from the
 transient bucket, and log success. Any call that raises ends the run; the
 calls made before it stay made.

 The storage service is a map from locations to objects together with the
 set of calls it refuses. A run returns the trace of the calls it attempted,
 the final contents of the store and the error that ended it, if any.
 */
module Orchestrator {

  import opened Values
  import opened Digits
  import opened Frames
  import opened Normalize
  import opened Metadata

  const SuccessMessage := "Successful normalization."

  /** `Records[i].s3`: the bucket and key of an object-created notification. */
  datatype EventRecord = EventRecord(bucket: string, key: string)

  /** The event the handler is invoked with. */
  datatype Notification = Notification(records: seq<EventRecord>)

  datatype Loc = Loc(bucket: string, key: string)

  /** An object body: a JSON document holding a list of records, a table
      written as CSV, or anything `json.loads` rejects. */
  datatype Blob = Json(records: seq<Record>) | Csv(table: Table) | Unparseable

  type Store = map<Loc, Blob>

  /** One storage call, or the success log line. */
  datatype Step =
    | Get(from: Loc)
    | Put(to: Loc, table: Table)
    | Copy(source: string, to: Loc)
    | Delete(at: Loc)
    | Log(message: string)

  /** A configured handler: which normalizer class, the two destination
      buckets and the configuration document. */
  datatype Handler = Handler(kind: NormalizerClass, rawBucket: string, normalizedBucket: string, config: Config)

  /** The trace of attempted steps, the final store, and the error that
      ended the run early, if one did. */
  datatype Outcome = Outcome(trace: seq<Step>, store: Store, error: Option<Error>)

  // ---------------------------------------------------------- one step

  /** How the storage service reads a `CopySource`: the bucket up to the
      first slash, the key after it. */
  function SourceLoc(source: string): (r: Option<Loc>)
    ensures r.Some? ==> source == r.value.bucket + "/" + r.value.key && '/' !in r.value.bucket
    ensures r.None? ==> '/' !in source
  {
    match IndexOf(source, '/')
    case None => None
    case Some(i) =>
      assert source == source[..i] + "/" + source[i + 1..];
      Some(Loc(source[..i], source[i + 1..]))
  }

  /** The `CopySource` the handler builds from a bucket and a key. */
  function CopySource(bucket: string, key: string): string {
    bucket + "/" + key
  }

  /** A copy source built from a bucket name without a slash names that
      bucket and key again. */
  lemma CopySourceRoundTrip(bucket: string, key: string)
    requires '/' !in bucket
    ensures SourceLoc(CopySource(bucket, key)) == Some(Loc(bucket, key))
  {
    IndexOfJoin(bucket, '/', key);
    var source := CopySource(bucket, key);
    assert source == bucket + ['/'] + key;
    assert source[..|bucket|] == bucket;
    assert source[|bucket| + 1..] == key;
  }

  /** The storage operation a step performs; the log line performs none. */
  function OperationOf(step: Step): Option<Operation> {
    match step
    case Get(_) => Some(GetObject)
    case Put(_, _) => Some(PutObject)
    case Copy(_, _) => Some(CopyObject)
    case Delete(_) => Some(DeleteObject)
    case Log(_) => None
  }

  /** The effect of one step on the store, or the error the call raises. */
  function Apply(store: Store, refused: set<Operation>, step: Step): (r: Result<Store>)
    ensures OperationOf(step).Some? && OperationOf(step).value in refused ==>
      r == Err(AccessDenied(OperationOf(step).value))
    ensures step.Get? ==> (r.Ok? <==> GetObject !in refused && step.from in store)
    ensures step.Put? ==> (r.Ok? <==> PutObject !in refused)
    ensures step.Copy? ==> (r.Ok? <==>
      CopyObject !in refused && SourceLoc(step.source).Some? && SourceLoc(step.source).value in store)
    ensures step.Get? && r.Ok? ==> step.from in store
    ensures step.Get? || step.Log? ==> r.Ok? ==> r.value == store
    ensures step.Log? ==> r.Ok?
    ensures step.Put? && r.Ok? ==> r.value == store[step.to := Csv(step.table)]
    ensures step.Copy? && r.Ok? ==>
      && SourceLoc(step.source).Some? && SourceLoc(step.source).value in store
      && r.value == store[step.to := store[SourceLoc(step.source).value]]
    ensures step.Delete? ==> (r.Ok? <==> DeleteObject !in refused)
    ensures step.Delete? && r.Ok? ==> r.value == store - {step.at}
  {
    match step
    case Get(from) =>
      if GetObject in refused then Err(AccessDenied(GetObject))
      else if from !in store then Err(ObjectNotFound(from.bucket, from.key))
      else Ok(store)
    case Put(to, table) =>
      if PutObject in refused then Err(AccessDenied(PutObject)) else Ok(store[to := Csv(table)])
    case Copy(source, to) =>
      if CopyObject in refused then Err(AccessDenied(CopyObject))
      else
        match SourceLoc(source) {
          case None => Err(InvalidCopySource(source))
          case Some(from) =>
            if from !in store then Err(ObjectNotFound(from.bucket, from.key))
            else Ok(store[to := store[from]])
        }
    case Delete(at) =>
      // Deleting a key that is not there succeeds.
      if DeleteObject in refused then Err(AccessDenied(DeleteObject)) else Ok(store - {at})
    case Log(_) => Ok(store)
  }

  // -------------------------------------------------------- a sequence

  /** Runs `steps` in order, stopping at the first that raises. */
  function Execute(store: Store, refused: set<Operation>, steps: seq<Step>): (o: Outcome)
    ensures o.trace <= steps
    ensures o.error.None? ==> o.trace == steps
    ensures o.error.Some? ==> o.trace != []
    decreases |steps|
  {
    if steps == [] then Outcome([], store, None)
    else match Apply(store, refused, steps[0])
      case Err(e) => Outcome([steps[0]], store, Some(e))
      case Ok(next) =>
        var rest := Execute(next, refused, steps[1..]);
        Outcome([steps[0]] + rest.trace, rest.store, rest.error)
  }

  /** Nothing is undone: a sequence that fails leaves the store as the steps
      before the failing one left it, and the failing step is the last one
      attempted. */
  lemma {:induction false} ExecuteStopsAtFailure(store: Store, refused: set<Operation>, steps: seq<Step>)
    ensures var o := Execute(store, refused, steps);
      o.error.Some? ==>
        var done := Execute(store, refused, o.trace[..|o.trace| - 1]);
        && done.error.None?
        && o.store == done.store
        && Apply(done.store, refused, o.trace[|o.trace| - 1]) == Err(o.error.value)
    decreases |steps|
  {
    var o := Execute(store, refused, steps);
    if steps != [] && o.error.Some? {
      match Apply(store, refused, steps[0])
      case Err(e) =>
        assert o == Outcome([steps[0]], store, Some(e));
        assert o.trace[..|o.trace| - 1] == [];
        assert Execute(store, refused, []) == Outcome([], store, None);
      case Ok(next) =>
        var rest := Execute(next, refused, steps[1..]);
        ExecuteStopsAtFailure(next, refused, steps[1..]);
        var prefix := rest.trace[..|rest.trace| - 1];
        assert o == Outcome([steps[0]] + rest.trace, rest.store, rest.error);
        assert o.trace[..|o.trace| - 1] == [steps[0]] + prefix;
        assert o.trace[|o.trace| - 1] == rest.trace[|rest.trace| - 1];
        ExecuteAppend(store, refused, steps[0], prefix);
        var done := Execute(next, refused, prefix);
        assert Execute(store, refused, o.trace[..|o.trace| - 1]) == Outcome([steps[0]] + done.trace, done.store, done.error);
    }
  }

  /** A sequence that succeeds is the composition of its steps' effects. */
  lemma ExecuteAppend(store: Store, refused: set<Operation>, step: Step, steps: seq<Step>)
    requires Apply(store, refused, step).Ok?
    ensures Execute(store, refused, [step] + steps) ==
      var rest := Execute(Apply(store, refused, step).value, refused, steps);
      Outcome([step] + rest.trace, rest.store, rest.error)
  {
    assert ([step] + steps)[1..] == steps;
  }

  // --------------------------------------------------------------- a run

  /** The object the run reads: the first record of the event. */
  function Source(event: Notification): Loc
    requires event.records != []
  {
    Loc(event.records[0].bucket, event.records[0].key)
  }

  /** The calls after the transform, in the order the handler makes them:
      put, copy, delete, and the success log line. */
  function Writes(h: Handler, src: Loc, stamped: Stamped): (steps: seq<Step>)
    ensures |steps| == 4
    ensures steps[0] == Put(Loc(h.normalizedBucket, stamped.normalizedKey), stamped.table)
    ensures steps[1] == Copy(CopySource(src.bucket, src.key), Loc(h.rawBucket, stamped.rawKey))
    ensures steps[2] == Delete(src)
    ensures steps[3] == Log(SuccessMessage)
  {
    [ Put(Loc(h.normalizedBucket, stamped.normalizedKey), stamped.table),
      Copy(CopySource(src.bucket, src.key), Loc(h.rawBucket, stamped.rawKey)),
      Delete(src),
      Log(SuccessMessage) ]
  }

  /** The transform of one run: decode, normalize, stamp. */
  function Transform(h: Handler, blob: Blob, now: Timestamp, uuid: string): (r: Result<Stamped>)
    requires ValidTimestamp(now)
    ensures blob.Json? ==> (r.Ok? <==> NormalizeData(VariantOf(h.kind), h.config, blob.records).Ok?)
    ensures !blob.Json? ==> r == Err(NotJson)
    ensures blob.Json? && r.Ok? ==>
      r.value == AddMetadata(NormalizeData(VariantOf(h.kind), h.config, blob.records).value, h.config.division, now, uuid)
  {
    match blob
    case Json(records) =>
      var table :- NormalizeData(VariantOf(h.kind), h.config, records);
      Ok(AddMetadata(table, h.config.division, now, uuid))
    case _ => Err(NotJson)
  }

  /** `__call__` with the transform given as a parameter: read the first
      record's object, transform it, then make the planned writes. */
  function Run(h: Handler, event: Notification, store: Store, refused: set<Operation>,
               transform: Blob -> Result<Stamped>): (o: Outcome)
    ensures event.records == [] ==> o == Outcome([], store, Some(MalformedEvent))
    ensures event.records != [] ==> o.trace != [] && o.trace[0] == Get(Source(event))
  {
    if event.records == [] then Outcome([], store, Some(MalformedEvent))
    else
      var src := Source(event);
      match Apply(store, refused, Get(src))
      case Err(e) => Outcome([Get(src)], store, Some(e))
      case Ok(_) =>
        match transform(store[src])
        case Err(e) => Outcome([Get(src)], store, Some(e))
        case Ok(stamped) =>
          var rest := Execute(store, refused, Writes(h, src, stamped));
          Outcome([Get(src)] + rest.trace, rest.store, rest.error)
  }

  /** The keys a successful transform stamps read back as the date of
      `now` and the tag of `uuid`. */
  lemma TransformKeys(h: Handler, blob: Blob, now: Timestamp, uuid: string)
    requires ValidTimestamp(now) && IsCanonicalUuid(uuid)
    requires Transform(h, blob, now, uuid).Ok?
    ensures var stamped := Transform(h, blob, now, uuid).value;
      && ParseKey(stamped.normalizedKey) == Some(KeyParts(now.year, now.month, now.day, Tag(uuid), NormalizedExtension))
      && ParseKey(stamped.rawKey) == Some(KeyParts(now.year, now.month, now.day, Tag(uuid), RawExtension))
  {
    var table := NormalizeData(VariantOf(h.kind), h.config, blob.records).value;
    RunKeys(table, h.config.division, now, uuid);
  }

  /** One invocation of the handler with the clock reading `now` and the
      UUID string `uuid`. An object that is not JSON, or whose records
      `normalize_data` rejects, ends the run right after the read: nothing
      is put, copied or deleted, and the error is the transform's. */
  function Invoke(h: Handler, event: Notification, store: Store, refused: set<Operation>,
                  now: Timestamp, uuid: string): (o: Outcome)
    requires ValidTimestamp(now)
    ensures event.records == [] ==> o == Outcome([], store, Some(MalformedEvent))
    ensures event.records != [] && Source(event) in store && GetObject !in refused ==>
      var blob := store[Source(event)];
      && (!blob.Json? ==> o == Outcome([Get(Source(event))], store, Some(NotJson)))
      && (blob.Json? && NormalizeData(VariantOf(h.kind), h.config, blob.records).Err? ==>
            o == Outcome([Get(Source(event))], store,
                         Some(NormalizeData(VariantOf(h.kind), h.config, blob.records).error)))
  {
    Run(h, event, store, refused, b => Transform(h, b, now, uuid))
  }

  // ------------------------------------------------------- run properties

  /** How many calls of `op` a trace holds. */
  function Calls(trace: seq<Step>, op: Operation): (n: nat)
    ensures n <= |trace|
  {
    if trace == [] then 0
    else (if OperationOf(trace[0]) == Some(op) then 1 else 0) + Calls(trace[1..], op)
  }

  /** The full trace of a run whose read and transform succeed. */
  function Planned(h: Handler, src: Loc, stamped: Stamped): seq<Step> {
    [Get(src)] + Writes(h, src, stamped)
  }

  /** How a run unfolds: no record, a refused or missing read, a failing
      transform, or the planned writes executed in order. */
  lemma RunShape(h: Handler, event: Notification, store: Store, refused: set<Operation>,
                 transform: Blob -> Result<Stamped>)
    ensures var o := Run(h, event, store, refused, transform);
      if event.records == [] then o == Outcome([], store, Some(MalformedEvent))
      else
        var src := Source(event);
        if src !in store || GetObject in refused then
          o.trace == [Get(src)] && o.store == store && o.error.Some?
        else if transform(store[src]).Err? then
          o == Outcome([Get(src)], store, Some(transform(store[src]).error))
        else
          var rest := Execute(store, refused, Writes(h, src, transform(store[src]).value));
          o == Outcome([Get(src)] + rest.trace, rest.store, rest.error)
  {
  }

  /** The planned trace holds each storage operation exactly once. */
  lemma PlannedCallsOnce(h: Handler, src: Loc, stamped: Stamped, op: Operation)
    ensures Calls(Planned(h, src, stamped), op) == 1
  {
    var p := Planned(h, src, stamped);
    assert p == [p[0]] + ([p[1]] + ([p[2]] + ([p[3]] + [p[4]])));
    CallsCons(p[4], [], op);
    CallsCons(p[3], [p[4]], op);
    CallsCons(p[2], [p[3]] + [p[4]], op);
    CallsCons(p[1], [p[2]] + ([p[3]] + [p[4]]), op);
    CallsCons(p[0], [p[1]] + ([p[2]] + ([p[3]] + [p[4]])), op);
  }

  lemma CallsCons(step: Step, rest: seq<Step>, op: Operation)
    ensures Calls([step] + rest, op) == (if OperationOf(step) == Some(op) then 1 else 0) + Calls(rest, op)
  {
    assert ([step] + rest)[1..] == rest;
  }

  /** A run that ends without error read the first record's object, whose
      transform succeeded, and made exactly the planned calls: one get, one
      put of the stamped table under the normalized key, one copy under the
      raw key, one delete of the original, then the success log line. */
  lemma SuccessfulRun(h: Handler, event: Notification, store: Store, refused: set<Operation>,
                      transform: Blob -> Result<Stamped>)
    requires Run(h, event, store, refused, transform).error.None?
    ensures event.records != [] && Source(event) in store && GetObject !in refused
    ensures transform(store[Source(event)]).Ok?
    ensures Run(h, event, store, refused, transform).trace ==
      Planned(h, Source(event), transform(store[Source(event)]).value)
    ensures forall op :: Calls(Run(h, event, store, refused, transform).trace, op) == 1
  {
    RunShape(h, event, store, refused, transform);
    var src := Source(event);
    var stamped := transform(store[src]).value;
    forall op {
      PlannedCallsOnce(h, src, stamped, op);
    }
  }

  /** A run that ends with an error never logs success, and its calls are a
      proper prefix of the planned ones when the read and the transform
      succeeded; otherwise it stopped at the read. */
  lemma FailFast(h: Handler, event: Notification, store: Store, refused: set<Operation>,
                 transform: Blob -> Result<Stamped>)
    requires Run(h, event, store, refused, transform).error.Some?
    ensures Log(SuccessMessage) !in Run(h, event, store, refused, transform).trace
    ensures event.records != [] ==>
      var src := Source(event);
      var o := Run(h, event, store, refused, transform);
      if src in store && GetObject !in refused && transform(store[src]).Ok?
      then o.trace < Planned(h, src, transform(store[src]).value)
      else o.trace == [Get(src)] && o.store == store
  {
    RunShape(h, event, store, refused, transform);
    if event.records != [] {
      var src := Source(event);
      if src in store && GetObject !in refused && transform(store[src]).Ok? {
        var w := Writes(h, src, transform(store[src]).value);
        var rest := Execute(store, refused, w);
        assert rest.trace != w by {
          if rest.trace == w {
            ExecuteStopsAtFailure(store, refused, w);
          }
        }
        assert Log(SuccessMessage) !in rest.trace by {
          if Log(SuccessMessage) in rest.trace {
            ExecuteStopsAtFailure(store, refused, w);
          }
        }
      }
    }
  }

  /** A failing transform ends the run right after the read: nothing is
      written, copied or deleted. */
  lemma TransformFailureStopsRun(h: Handler, event: Notification, store: Store, refused: set<Operation>,
                                 transform: Blob -> Result<Stamped>)
    requires event.records != []
    requires Source(event) in store && GetObject !in refused
    requires transform(store[Source(event)]).Err?
    ensures Run(h, event, store, refused, transform) ==
      Outcome([Get(Source(event))], store, Some(transform(store[Source(event)]).error))
  {
  }

  /** Nothing is rolled back: a run that fails after the read leaves the
      store as the calls before the failing one left it. */
  lemma NoRollback(h: Handler, event: Notification, store: Store, refused: set<Operation>,
                   transform: Blob -> Result<Stamped>)
    requires Run(h, event, store, refused, transform).error.Some?
    requires |Run(h, event, store, refused, transform).trace| >= 2
    ensures var o := Run(h, event, store, refused, transform);
      o.store == Execute(store, refused, o.trace[1..|o.trace| - 1]).store
  {
    RunShape(h, event, store, refused, transform);
    var src := Source(event);
    var stamped := transform(store[src]).value;
    var o := Run(h, event, store, refused, transform);
    var rest := Execute(store, refused, Writes(h, src, stamped));
    ExecuteStopsAtFailure(store, refused, Writes(h, src, stamped));
    assert o.trace[1..|o.trace| - 1] == rest.trace[..|rest.trace| - 1];
  }

  /** A refused copy leaves the table just put in place. */
  lemma CopyRefusedKeepsPut(h: Handler, event: Notification, store: Store, refused: set<Operation>,
                            transform: Blob -> Result<Stamped>)
    requires event.records != []
    requires Source(event) in store && transform(store[Source(event)]).Ok?
    requires GetObject !in refused && PutObject !in refused && CopyObject in refused
    ensures var stamped := transform(store[Source(event)]).value;
      Run(h, event, store, refused, transform) ==
        Outcome(Planned(h, Source(event), stamped)[..3],
                store[Loc(h.normalizedBucket, stamped.normalizedKey) := Csv(stamped.table)],
                Some(AccessDenied(CopyObject)))
  {
    RunShape(h, event, store, refused, transform);
    var src := Source(event);
    var stamped := transform(store[src]).value;
    var w := Writes(h, src, stamped);
    assert w == [w[0]] + w[1..];
    ExecuteAppend(store, refused, w[0], w[1..]);
    assert w[1..] == [w[1]] + w[2..];
    assert Planned(h, src, stamped)[..3] == [Get(src), w[0], w[1]];
  }

  /** A successful run leaves the stamped table under the normalized key and
      the original object under the raw key, and the original gone; every
      other object is untouched. */
  lemma SuccessfulRunEffects(h: Handler, event: Notification, store: Store, refused: set<Operation>,
                             transform: Blob -> Result<Stamped>)
    requires Run(h, event, store, refused, transform).error.None?
    requires '/' !in event.records[0].bucket
    ensures event.records != [] && Source(event) in store
    ensures var src := Source(event);
      var stamped := transform(store[src]).value;
      var normalized := Loc(h.normalizedBucket, stamped.normalizedKey);
      var raw := Loc(h.rawBucket, stamped.rawKey);
      Run(h, event, store, refused, transform).store ==
        store[normalized := Csv(stamped.table)][raw := if src == normalized then Csv(stamped.table) else store[src]] - {src}
  {
    SuccessfulRun(h, event, store, refused, transform);
    RunShape(h, event, store, refused, transform);
    var src := Source(event);
    var stamped := transform(store[src]).value;
    CopySourceRoundTrip(src.bucket, src.key);
    WritesEffect(h, src, stamped, store, refused);
  }

  /** The store after the four writes, when none of them fails. */
  lemma WritesEffect(h: Handler, src: Loc, stamped: Stamped, store: Store, refused: set<Operation>)
    requires Execute(store, refused, Writes(h, src, stamped)).error.None?
    requires SourceLoc(CopySource(src.bucket, src.key)) == Some(src)
    ensures var normalized := Loc(h.normalizedBucket, stamped.normalizedKey);
      && (src in store || src == normalized)
      && Execute(store, refused, Writes(h, src, stamped)).store ==
           store[normalized := Csv(stamped.table)]
                [Loc(h.rawBucket, stamped.rawKey) := if src == normalized then Csv(stamped.table) else store[src]] - {src}
  {
    var w := Writes(h, src, stamped);
    var s1 := store[Loc(h.normalizedBucket, stamped.normalizedKey) := Csv(stamped.table)];
    assert w == [w[0]] + w[1..];
    assert w[1..] == [w[1]] + w[2..];
    assert w[2..] == [w[2]] + w[3..];
    assert w[3..] == [w[3]] + [];
    ExecuteAppend(store, refused, w[0], w[1..]);
    assert Apply(store, refused, w[0]) == Ok(s1);
    ExecuteAppend(s1, refused, w[1], w[2..]);
    var s2 := Apply(s1, refused, w[1]).value;
    ExecuteAppend(s2, refused, w[2], w[3..]);
    var s3 := Apply(s2, refused, w[2]).value;
    ExecuteAppend(s3, refused, w[3], []);
  }

  /** Only the first record of the event matters. */
  lemma FirstRecordOnly(h: Handler, first: EventRecord, more: seq<EventRecord>, store: Store,
                        refused: set<Operation>, transform: Blob -> Result<Stamped>)
    ensures Run(h, Notification([first] + more), store, refused, transform) ==
            Run(h, Notification([first]), store, refused, transform)
  {
    assert Source(Notification([first] + more)) == Source(Notification([first]));
  }

  /** A successful invocation puts the normalized table of the first
      record's object: one row per record of that object, the final schema's
      columns followed by the three metadata columns when the schema names
      none of them, and the run's division, timestamp and tag in every row. */
  lemma InvokeTable(h: Handler, event: Notification, store: Store, refused: set<Operation>,
                    now: Timestamp, uuid: string)
    requires ValidTimestamp(now)
    requires Invoke(h, event, store, refused, now, uuid).error.None?
    ensures event.records != [] && Source(event) in store && store[Source(event)].Json?
    ensures var trace := Invoke(h, event, store, refused, now, uuid).trace;
      var records := store[Source(event)].records;
      var schema := h.config.finalSchema;
      && |trace| == 5 && trace[1].Put?
      && NormalizeData(VariantOf(h.kind), h.config, records).Ok?
      && |trace[1].table.rows| == |records|
      && Conforms(trace[1].table)
      && (DivisionColumn !in schema && DatetimeColumn !in schema && UuidColumn !in schema ==>
            trace[1].table.columns == schema + [DivisionColumn, DatetimeColumn, UuidColumn])
      && forall i :: 0 <= i < |records| ==>
           && trace[1].table.rows[i][DivisionColumn] == Str(h.config.division)
           && trace[1].table.rows[i][DatetimeColumn] == Stamp(now)
           && trace[1].table.rows[i][UuidColumn] == Str(Tag(uuid))
  {
    var transform := b => Transform(h, b, now, uuid);
    SuccessfulRun(h, event, store, refused, transform);
    var blob := store[Source(event)];
    var table := NormalizeData(VariantOf(h.kind), h.config, blob.records).value;
    forall i | 0 <= i < |blob.records|
      ensures var row := AddMetadata(table, h.config.division, now, uuid).table.rows[i];
        && row[DivisionColumn] == Str(h.config.division)
        && row[DatetimeColumn] == Stamp(now)
        && row[UuidColumn] == Str(Tag(uuid))
    {
      MetadataCells(table, h.config.division, now, uuid, i);
    }
  }

  /** The keys of the put and the copy of a successful invocation come from
      the same stamp: they read back as the same date and the same tag. */
  lemma InvokeKeysAgree(h: Handler, event: Notification, store: Store, refused: set<Operation>,
                        now: Timestamp, uuid: string)
    requires ValidTimestamp(now) && IsCanonicalUuid(uuid)
    requires Invoke(h, event, store, refused, now, uuid).error.None?
    ensures var trace := Invoke(h, event, store, refused, now, uuid).trace;
      && |trace| == 5 && trace[1].Put? && trace[2].Copy?
      && ParseKey(trace[1].to.key) == Some(KeyParts(now.year, now.month, now.day, Tag(uuid), NormalizedExtension))
      && ParseKey(trace[2].to.key) == Some(KeyParts(now.year, now.month, now.day, Tag(uuid), RawExtension))
  {
    var transform := b => Transform(h, b, now, uuid);
    SuccessfulRun(h, event, store, refused, transform);
    TransformKeys(h, store[Source(event)], now, uuid);
  }
}

=== FILE: values.dfy ===
/**
 The cell values, rows and failure results shared by every stage of the
 normalizer: a flattened JSON record holds nulls, integers and strings, and
 the metadata stage adds a UTC timestamp.
 */
module Values {

  /** A calendar instant as `datetime.now(timezone.utc)` produces it. */
  datatype Timestamp = Timestamp(
    year: int, month: int, day: int,
    hour: int, minute: int, second: int, microsecond: int)

  /** The ranges Python's `datetime` admits (MINYEAR = 1, MAXYEAR = 9999). */
  predicate ValidTimestamp(t: Timestamp) {
    && 1 <= t.year <= 9999
    && 1 <= t.month <= 12
    && 1 <= t.day <= 31
    && 0 <= t.hour < 24
    && 0 <= t.minute < 60
    && 0 <= t.second < 60
    && 0 <= t.microsecond < 1000000
  }

  /** One cell of a table. `Null` stands for a JSON null, for a field a
      record does not have (pandas' NaN), and for a column added empty by
      reindexing. */
  datatype Value =
    | Null
    | Int(i: int)
    | Str(s: string)
    | Stamp(t: Timestamp)

  /** A row maps column names to cells. */
  type Row = map<string, Value>

  /** The storage calls the orchestration makes. */
  datatype Operation = GetObject | PutObject | CopyObject | DeleteObject

  /** Everything that can abort a run. */
  datatype Error =
    | MalformedEvent                      // the event carries no change record
    | ObjectNotFound(bucket: string, key: string)
    | AccessDenied(op: Operation)         // the storage service refused a call
    | NotJson                             // the object body does not decode as JSON
    | DuplicateColumns                    // the rename map sends two columns to one name
    | MissingColumns(names: seq<string>)  // a column the transform indexes is absent
    | NotAnInteger(column: string)        // a cell of an integer column cannot be coerced
    | InvalidCopySource(source: string)   // a copy source with no `bucket/key` split

  datatype Option<T> = None | Some(value: T)

  /** Success or the error that aborted the computation; usable with `:-`. */
  datatype Result<T> = Ok(value: T) | Err(error: Error) {

    predicate IsFailure() {
      Err?
    }

    function PropagateFailure<U>(): Result<U>
      requires Err?
    {
      Err(error)
    }

    function Extract(): T
      requires Ok?
    {
      value
    }
  }
}
